=== FILE: README.md ===
# SafeVault and the User Management API, modelled in Dafny

This project models two small ASP.NET services from the Microsoft back-end
developer course repository.

**SafeVault** registers and logs in users.
- `InputSanitizer.SanitizeInput` runs every form value through a fixed
  pipeline: HTML-decode, remove `<script>` blocks, remove tags, remove
  `on…="…"` handlers, delete `'` and `;`, delete the SQL keywords DROP,
  TABLE, INSERT, DELETE, UPDATE and SELECT as whole words, delete `--`, then
  HTML-encode.
- `ValidateAndSanitize` checks the sanitized username against
  `^[a-zA-Z0-9_\-]+$` and the sanitized e-mail with `MailAddress`.
- `UserService` registers a user (a duplicate check, then an insert) and
  authenticates one (a lookup, then a BCrypt verification). It works over a
  `UserRepository` that looks rows up by the sanitized username.
- `AuthController` exposes `register` and `login`. `login` issues a one-hour
  JWT carrying the name and role claims.

**UserManagementAPI** keeps users in memory.
- The table is a dictionary keyed by id, with a counter that hands out ids.
- It has GET/POST/PUT/DELETE handlers and validation attributes on `User`.
- A middleware admits a request only when its `Authorization` header holds a
  fixed token, optionally after a `Bearer ` prefix.

Files:
- `text.dfy`: character classes, ASCII case folding, searching, trimming and
  decimal formatting (module `Text`).
- `sanitizer_stages.dfy`: each regular-expression stage of the sanitizer as a
  left-to-right scanning function, with its lemmas (module `SanitizerStages`).
- `input_sanitizer.dfy`: the pipeline, the e-mail check and the combined
  validation (module `InputSanitizer`).
- `sanitizer_examples.dfy`: the sanitizer on the inputs of the project's unit
  tests, and on `DR--OP` (module `SanitizerExamples`).
- `user_repository.dfy`: the `Users` table (module `Repositories`).
- `user_service.dfy`: `UserService` (module `Services`).
- `auth_controller.dfy`: `AuthController` and the token descriptor (module
  `Controllers`).
- `token_validation.dfy`: the JWT validation that SafeVault's start-up
  configures (module `Authentication`).
- `user_management_api.dfy`: the user table, its handlers and the token
  middleware (module `UserManagementApi`).

Library code becomes parameters: `WebUtility.HtmlDecode` and the
`MailAddress` parser (`Framework`), BCrypt (`PasswordHasher`, with the
random salt as an argument), the `[EmailAddress]` check, the token writer,
the clock (`now`, in .NET ticks), and `Url.Action`. A failing database
call is a `fault` flag. The repository turns it into a null row or `false`,
as its `catch` blocks do.

Where the code and the behaviour described for it differ, the model follows
the code:
- The sanitizer is not idempotent. `--` is removed after the keywords, so
  `DR--OP` becomes `DROP`, and sanitizing that again gives the empty string
  (`SanitizerExamples.NotIdempotent`).
- "No `DROP TABLE` in the output" holds for the tested input only
  (`SanitizerExamples.InjectionInput`). In general the model proves only that
  no keyword is left as a whole word right after the keyword loop.
- `UserRepository.GetUser` sanitizes its argument before the query. Login
  passes it the raw name, so that name is sanitized once. `Register` passes
  it a name the controller has already sanitized, so the duplicate check
  sanitizes twice. For a name whose sanitizing is not a fixpoint, the
  duplicate check misses (`SanitizerExamples.DuplicateCheckMisses`).
- A store failure and a missing row are not told apart. Both give a null
  user or `false`.
- The controller answers "Username or email already exists." for every
  refusal of the service, including a store failure.
- A token is not refused one hour after issue. The default clock skew of the
  validating library accepts it for five more minutes. With the issuer and
  audience swapped as written, it is never accepted unless the two
  configured strings are equal (see Findings).

## Model

| member | source | states |
|---|---|---|
| Text.Fold | SafeVault/SafeVault/Helpers/InputSanitizer.cs:21 | the case-insensitive comparisons map exactly the ASCII capitals to their lower-case letters and leave every other character alone |
| Text.Trim | UserManagementAPI/UserManagementAPI/Program.cs:301 | the result is a middle slice of the text with only white space cut on both sides, and it neither starts nor ends with white space |
| Text.TrimPadded | UserManagementAPI/UserManagementAPI/Program.cs:301 | trimming a token padded with white space on both sides gives back exactly the token |
| Text.NatToDecimal | UserManagementAPI/UserManagementAPI/Program.cs:73 | an id is written as a non-empty run of decimal digits without a leading zero |
| Text.DecimalRoundTrip | UserManagementAPI/UserManagementAPI/Program.cs:101 | reading the decimal form of a non-negative id back gives the id, so the location determines the id |
| SanitizerStages.StripScripts | SafeVault/SafeVault/Helpers/InputSanitizer.cs:21 | the script stage never lengthens the text and adds no character that was not in it |
| SanitizerStages.ScriptBlockRemoved | SafeVault/SafeVault/Helpers/InputSanitizer.cs:21 | an opening `<script` in any letter case, its attributes up to the first `>`, the content, and the first closing tag after it are removed together |
| SanitizerStages.StripScriptsPlain | SafeVault/SafeVault/Helpers/InputSanitizer.cs:21 | text without `<` passes the script stage unchanged |
| SanitizerStages.StripScriptsPrefix | SafeVault/SafeVault/Helpers/InputSanitizer.cs:21 | text without `<` is copied as it is and the stage goes on with what follows, so a match is found wherever it starts |
| SanitizerStages.ScriptBlockRemovedAfter | SafeVault/SafeVault/Helpers/InputSanitizer.cs:21 | a script block after text without `<` is removed with its content while the text before it is kept |
| SanitizerStages.StripTags | SafeVault/SafeVault/Helpers/InputSanitizer.cs:24 | the tag stage never lengthens the text and adds no character that was not in it |
| SanitizerStages.StripTagsTagFree | SafeVault/SafeVault/Helpers/InputSanitizer.cs:24 | after the tag stage no position starts a `<…>` tag with at least one character inside |
| SanitizerStages.StripTagsPlain | SafeVault/SafeVault/Helpers/InputSanitizer.cs:24 | text without `<` passes the tag stage unchanged |
| SanitizerStages.StripHandlers | SafeVault/SafeVault/Helpers/InputSanitizer.cs:27 | the handler stage never lengthens the text and adds no character that was not in it |
| SanitizerStages.HandlerRemoved | SafeVault/SafeVault/Helpers/InputSanitizer.cs:27 | `on` in any case, a handler name, `=` with optional white space and a non-empty double-quoted value are removed as one piece |
| SanitizerStages.StripHandlersPlain | SafeVault/SafeVault/Helpers/InputSanitizer.cs:27 | text without `"` passes the handler stage unchanged |
| SanitizerStages.StripHandlersPrefix | SafeVault/SafeVault/Helpers/InputSanitizer.cs:27 | text with no character that folds to `o` is copied as it is and the stage goes on with what follows |
| SanitizerStages.HandlerRemovedAfter | SafeVault/SafeVault/Helpers/InputSanitizer.cs:27 | a handler after text with no character that folds to `o` is removed while the text before it is kept |
| SanitizerStages.DropQuotes | SafeVault/SafeVault/Helpers/InputSanitizer.cs:30 | a character is in the result exactly when it is in the input and is neither `'` nor `;` |
| SanitizerStages.DropQuotesAppend | SafeVault/SafeVault/Helpers/InputSanitizer.cs:30 | deleting `'` and `;` works piecewise on a concatenation |
| SanitizerStages.DropQuotesPlain | SafeVault/SafeVault/Helpers/InputSanitizer.cs:30 | text without `'` and `;` is left unchanged |
| SanitizerStages.RemoveKeyword | SafeVault/SafeVault/Helpers/InputSanitizer.cs:36 | a keyword pass only deletes: it adds no character that was not in the text |
| SanitizerStages.RemoveKeywordClears | SafeVault/SafeVault/Helpers/InputSanitizer.cs:36 | after one keyword pass that keyword is nowhere a whole word, and a word that was not there as a whole word is not created by the pass |
| SanitizerStages.RemoveKeywordNowhere | SafeVault/SafeVault/Helpers/InputSanitizer.cs:36 | a keyword pass leaves text that never contains the keyword, in any case, unchanged |
| SanitizerStages.RemoveKeywordSplit | SafeVault/SafeVault/Helpers/InputSanitizer.cs:36 | a keyword pass works piecewise on text split after a non-word character |
| SanitizerStages.RemoveKeywords | SafeVault/SafeVault/Helpers/InputSanitizer.cs:33-37 | the keyword loop only deletes: it adds no character that was not in the text |
| SanitizerStages.RemoveKeywordsNowhere | SafeVault/SafeVault/Helpers/InputSanitizer.cs:33-37 | the keyword loop leaves text that contains none of the keywords unchanged |
| SanitizerStages.RemoveKeywordsAppend | SafeVault/SafeVault/Helpers/InputSanitizer.cs:34-37 | running the loop over two keyword lists one after the other is running it over their concatenation |
| SanitizerStages.KeywordLoopClears | SafeVault/SafeVault/Helpers/InputSanitizer.cs:33-37 | after the whole loop none of the six SQL keywords is a whole word in any case, and no `;` is left |
| SanitizerStages.KeywordPrefixClears | SafeVault/SafeVault/Helpers/InputSanitizer.cs:34-37 | after the first n passes, each keyword already removed stays absent as a whole word |
| SanitizerStages.RemoveDoubleHyphens | SafeVault/SafeVault/Helpers/InputSanitizer.cs:40 | the hyphen stage never lengthens the text and adds no character that was not in it |
| SanitizerStages.DoubleHyphensGone | SafeVault/SafeVault/Helpers/InputSanitizer.cs:40 | after the hyphen stage the text never contains `--` |
| SanitizerStages.DoubleHyphensAppend | SafeVault/SafeVault/Helpers/InputSanitizer.cs:40 | the hyphen stage works piecewise when the first part does not end in `-` |
| SanitizerStages.DoubleHyphensPlain | SafeVault/SafeVault/Helpers/InputSanitizer.cs:40 | text without `--` is left unchanged |
| SanitizerStages.DoubleHyphensOnlyHyphens | SafeVault/SafeVault/Helpers/InputSanitizer.cs:40 | the hyphen stage deletes hyphens only: every other character survives in order |
| SanitizerStages.EncodeChar | SafeVault/SafeVault/Helpers/InputSanitizer.cs:43 | each character's encoding holds no raw markup or quote character, keeps a hyphen as itself, adds no hyphen, and keeps a character that needs no entity as itself |
| SanitizerStages.HtmlEncode | SafeVault/SafeVault/Helpers/InputSanitizer.cs:43 | the encoded text has no raw `<`, `>`, `"` or `'`, and it has `--` exactly when the input has |
| SanitizerStages.HtmlEncodePlain | SafeVault/SafeVault/Helpers/InputSanitizer.cs:43 | text that needs no entity is written out unchanged |
| InputSanitizer.Stripped | SafeVault/SafeVault/Helpers/InputSanitizer.cs:21-30 | after the markup and quote stages no `'` or `;` is left |
| InputSanitizer.Sanitized | SafeVault/SafeVault/Helpers/InputSanitizer.cs:12-46 | an empty input comes back as it is, and every result is free of raw `<`, `>`, `"` and `'` |
| InputSanitizer.SanitizedIsSafe | SafeVault/SafeVault/Helpers/InputSanitizer.cs:30-43 | whatever the decoder returns, the output has no raw markup or quote character and no `--`, and no SQL keyword is a whole word right after the keyword loop |
| InputSanitizer.SanitizeInput | SafeVault/SafeVault/Helpers/InputSanitizer.cs:12-46 | the step-by-step pipeline, with its loop over the keyword array, computes the sanitized value; empty input is returned unchanged; the output holds no raw markup or quote character and no `--` |
| InputSanitizer.PlainTextUnchanged | SafeVault/SafeVault/Helpers/InputSanitizer.cs:12-46 | text that no stage rewrites comes back unchanged |
| InputSanitizer.IsValidEmail | SafeVault/SafeVault/Helpers/InputSanitizer.cs:51-65 | empty text, text the parser refuses and text it reads as a different address are invalid; a non-empty text that parses back to itself is valid |
| InputSanitizer.UsernameOk | SafeVault/SafeVault/Helpers/InputSanitizer.cs:78 | an accepted name is non-empty and holds only letters, digits, `_` and `-`, except for one final line feed; every non-empty name of those characters is accepted, with or without one final line feed |
| InputSanitizer.ValidateAndSanitize | SafeVault/SafeVault/Helpers/InputSanitizer.cs:71-83 | returns the two sanitized values, and is valid exactly when the sanitized username has the username shape and the sanitized e-mail parses back to itself; an empty value is never valid |
| SanitizerExamples.UsernameUnchanged | SafeVault/SafeVaultTests/TestInputValidation.cs:52 | `Valid_User123` is left unchanged by the sanitizer |
| SanitizerExamples.EmailUnchanged | SafeVault/SafeVaultTests/TestInputValidation.cs:53 | `user@example.com` is left unchanged by the sanitizer |
| SanitizerExamples.ValidUsernameAndEmail | SafeVault/SafeVaultTests/TestInputValidation.cs:52-58 | the test's username and e-mail validate, and decoding the sanitized values gives back the originals |
| SanitizerExamples.ScriptBlockStripped | SafeVault/SafeVaultTests/TestInputValidation.cs:31 | the script stage removes the test's whole script block |
| SanitizerExamples.ScriptBlockInput | SafeVault/SafeVaultTests/TestInputValidation.cs:31-45 | any input that decodes to the script block, such as the entity-encoded one, sanitizes to the empty string, so no `script` remains |
| SanitizerExamples.LoneTagRemoved | SafeVault/SafeVault/Helpers/InputSanitizer.cs:24 | a single tag with no `&` inside sanitizes to the empty string |
| SanitizerExamples.ImageTagIsLone | SafeVault/SafeVaultTests/TestInputValidation.cs:38 | the test's image tag is one tag with no `&` |
| SanitizerExamples.ImageHandlerInput | SafeVault/SafeVaultTests/TestInputValidation.cs:38-40 | the image tag with its `onerror` handler sanitizes to the empty string, so no `onerror` remains |
| SanitizerExamples.DropRemoved | SafeVault/SafeVault/Helpers/InputSanitizer.cs:33-37 | `DROP` alone sanitizes to the empty string |
| SanitizerExamples.SplitWordJoined | SafeVault/SafeVault/Helpers/InputSanitizer.cs:33-40 | `DR--OP` passes the keyword loop and leaves the hyphen stage as the keyword `DROP` |
| SanitizerExamples.NotIdempotent | SafeVault/SafeVault/Helpers/InputSanitizer.cs:33-40 | sanitizing `DR--OP` twice differs from sanitizing it once |
| SanitizerExamples.InjectionInput | SafeVault/SafeVaultTests/TestInputValidation.cs:13-24 | the test's injection string sanitizes to `Robert)   Users`: no `DROP TABLE`, no `--`, no `';` and no `'` |
| Repositories.UserRepository.constructor | SafeVault/SafeVault/Repositories/UserRepository.cs:12-15 | a new repository starts with an empty table |
| Repositories.UserRepository.GetUser | SafeVault/SafeVault/Repositories/UserRepository.cs:17-58 | a row is returned exactly when the query does not fail and a row's username equals the sanitized argument, and the row returned is such a row |
| Repositories.UserRepository.AddUser | SafeVault/SafeVault/Repositories/UserRepository.cs:60-93 | the row is written unsanitized exactly when the command does not fail and neither its username nor its e-mail is taken; otherwise the table is unchanged and the result is `false` |
| Repositories.FoundUnderSanitizedName | SafeVault/SafeVault/Repositories/UserRepository.cs:21-25 | a stored row is found through every name that sanitizes to its username |
| Services.UserService.Register | SafeVault/SafeVault/Services/UserService.cs:16-31 | a found duplicate gives `false` with nothing written; otherwise the result is exactly the insert's result, and on success the one new row holds the arguments and the password hash |
| Services.UserService.NewUser | SafeVault/SafeVault/Services/UserService.cs:21-28 | the row keeps username, e-mail and role verbatim and holds the password only as its hash |
| Services.UserService.Authenticate | SafeVault/SafeVault/Services/UserService.cs:42-49 | a user is returned exactly when the lookup succeeds and the password verifies against the stored hash, and it is that stored row unchanged |
| Services.UserService.Login | SafeVault/SafeVault/Services/UserService.cs:33-40 | login succeeds exactly when authentication returns a user |
| Services.RegisteredUserAuthenticates | SafeVault/SafeVault/Services/UserService.cs:42-49 | a registered row is authenticated, and logged in, by every name that sanitizes to its username with the registered password |
| SanitizerExamples.DuplicateCheckMisses | SafeVault/SafeVault/Services/UserService.cs:18-19 | with `DROP` stored, the duplicate check for `DROP` looks up the empty name and finds nothing |
| Controllers.Descriptor | SafeVault/SafeVault/Controllers/AuthController.cs:56-67 | the token has exactly the name and role claims of the user, expires one hour after issue, bears the configured issuer and audience, and is signed with HMAC-SHA256 under the configured secret |
| Controllers.AuthController.constructor | SafeVault/SafeVault/Controllers/AuthController.cs:18-22 | a controller made over the shared service starts in its invariant whenever every stored username passes the username check |
| Controllers.AuthController.Register | SafeVault/SafeVault/Controllers/AuthController.cs:25-44 | the "Invalid input detected." answer is given exactly when the sanitized values do not validate, and the store is not touched; for valid values, success is exactly the service's success on the sanitized values and every refusal answers "Username or email already exists."; every stored username passes the username check |
| Controllers.AuthController.Login | SafeVault/SafeVault/Controllers/AuthController.cs:47-81 | the answer is 401 with one message exactly when authentication fails, and otherwise the token for the authenticated user with the redirection URL |
| Controllers.RegisteredUserLogsIn | SafeVault/SafeVault/Controllers/AuthController.cs:47-77 | after a registration, logging in with the raw name and password yields the token for the stored user |
| Authentication.Accepts | SafeVault/SafeVault/Program.cs:22-31 | an accepted token is signed under the validation key, whatever its algorithm, and is presented no later than the clock skew after it expires |
| Authentication.ConfiguredParameters | SafeVault/SafeVault/Program.cs:22-31 | the valid issuer is the configured audience and the valid audience the configured issuer, as written; the validation key is the configured secret |
| Authentication.ConfiguredAcceptsOnlyWhenIssuerIsAudience | SafeVault/SafeVault/Program.cs:28-29 | as configured, an issued token is accepted exactly when the configured issuer equals the audience and the skewed lifetime has not passed |
| Authentication.ConfiguredRejectsFreshToken | SafeVault/SafeVault/Program.cs:28-29 | with issuer `SafeVault` and audience `SafeVaultUsers`, a token is refused at the moment it is issued |
| Authentication.IntendedParameters | SafeVault/SafeVault/Controllers/AuthController.cs:64-66 | the valid issuer is the configured issuer and the valid audience the configured audience, as the controller issues tokens; the validation key is the configured secret |
| Authentication.IntendedAcceptsIssuedTokens | SafeVault/SafeVault/Controllers/AuthController.cs:63-66 | with issuer and audience taken as the controller issues them, every issued token is accepted exactly until one hour plus the clock skew |
| Authentication.AcceptedOnlyUnderSigningSecret | SafeVault/SafeVault/Program.cs:30 | a token is never accepted under a different secret |
| UserManagementApi.ValidationErrors | UserManagementAPI/UserManagementAPI/Program.cs:139-152 | each rule's message is present exactly when that rule fails, the e-mail format is judged only on a present e-mail, and no messages means the user conforms |
| UserManagementApi.UserTable.constructor | UserManagementAPI/UserManagementAPI/Program.cs:53-57 | the table holds the two seeded users under their ids, and the counter starts at 3 |
| UserManagementApi.UserTable.GetUsers | UserManagementAPI/UserManagementAPI/Program.cs:64 | every stored user is listed, and every listed user is stored under its own id |
| UserManagementApi.UserTable.GetUserById | UserManagementAPI/UserManagementAPI/Program.cs:67-74 | the stored user with that id is returned when there is one, and otherwise a not-found message naming the id |
| UserManagementApi.UserTable.PostUser | UserManagementAPI/UserManagementAPI/Program.cs:77-102 | a missing or invalid payload is refused with nothing changed; a valid one is stored under an id never used before, the counter advances, and the location names the id |
| UserManagementApi.UserTable.PutUser | UserManagementAPI/UserManagementAPI/Program.cs:105-114 | a present id has its whole record replaced, with the id forced and no validation; an absent id gives not found and changes nothing |
| UserManagementApi.UserTable.DeleteUser | UserManagementAPI/UserManagementAPI/Program.cs:117-124 | exactly that key is removed, and an absent id gives not found and changes nothing |
| UserManagementApi.ValidateToken | UserManagementAPI/UserManagementAPI/Program.cs:279-320 | every refusal is a 401 "Unauthorized"; a missing header is refused as carrying no token; any other refusal says the token is invalid |
| UserManagementApi.ValidateTokenPasses | UserManagementAPI/UserManagementAPI/Program.cs:296-316 | a request passes exactly when its header is the token itself, or a `Bearer ` prefix in any letter case followed by the token padded with white space |
| UserManagementApi.Presented | UserManagementAPI/UserManagementAPI/Program.cs:296-302 | a header without the `Bearer ` prefix presents itself; with it, the token is no longer than the rest after the prefix and neither starts nor ends with white space |
| UserManagementApi.PresentedExactly | UserManagementAPI/UserManagementAPI/Program.cs:296-302 | for a token that is not padded and does not start with the prefix, a header presents the token exactly when it carries it |

## Left out

- A C# `null` string is not modelled. Empty strings are, and `SanitizeInput` and `IsValidEmail` treat null and empty alike.
- Regular expressions are ASCII only. `\w`, `\b` and `RegexOptions.IgnoreCase` follow ASCII letters, digits and `_`. .NET's Unicode word classes and culture-aware case folding are not modelled.
- `WebUtility.HtmlDecode`, the `MailAddress` parser and the `[EmailAddress]` attribute are parameters. Nothing is assumed of the decoder except, where a lemma says so, that text without `&` decodes to itself.
- `WebUtility.HtmlEncode` is modelled for `<`, `>`, `"`, `'`, `&`, U+00A0 to U+00FF and characters above U+FFFF. Its handling of lone surrogates is not modelled.
- `SanitizedIsSafe`: no keyword is a whole word right after the keyword loop, but the final output may hold one again, because `--` is removed later (`DR--OP`).
- The MySQL table is a map keyed by username. Its username and e-mail uniqueness is assumed, since the schema file `database.sql` is not part of this model. The `UserID` column, the collation's case- and trailing-space-insensitive comparison, and connection handling are left out.
- BCrypt is a pair of functions. Salt drawing is an argument, and the only assumption, where a lemma says so, is that a password verifies against its own hashes.
- Authentication.AcceptedOnlyUnderSigningSecret: signing keys are compared by string equality. HMAC pads a short key with zero bytes, so two secrets that differ only by trailing NUL characters sign alike; that is not captured.
- Authentication.Accepts: the start-up sets no valid algorithms, so any algorithm is accepted. Whether the library supports that algorithm for a symmetric key is not modelled.
- JWT serialization and signatures are not modelled. Neither are the `NotBefore` claim, the UTF-8 key bytes, or the role-claim remapping in SafeVault/SafeVault/Program.cs:33-49. A token is its descriptor, and the token writer is a parameter.
- Missing configuration values (null `Jwt:*` strings) are not modelled.
- `Url.Action`, console logging, the `/users/stream` endpoint, and the logging and exception middleware are HTTP or stream I/O. They are left out.
- `UserController` and `AdminController` hold only authorization attributes and are left out.
- Requests are handled one at a time. The thread safety of `ConcurrentDictionary` and the race in `nextUserId++` are left out.
- UserManagementApi.UserTable.PostUser: the counter is an unbounded integer. The 32-bit wrap-around of `nextUserId` once it passes 2^31 - 1 is not modelled.
- The `Results.Problem` branch of POST, taken when `TryAdd` finds the id taken, is not modelled as a response. It is proved unreachable: the new id is never in the table.
- JSON deserialization errors and the `required` modifier on `User` are not modelled. A payload is either absent or a `User` whose strings may be null.
- UserManagementApi.ValidationErrors: the messages are ordered by property declaration order. The validator's actual ordering is not part of the contract.
- `User` objects are values. Aliasing between the stored object and the one a handler returns is not modelled.
- The `Authorization` header is its joined string value. Several header values are not modelled separately.

## Findings

| source | as written | input that shows it | evidently intended | confidence | as-written member | corrected member |
|---|---|---|---|---|---|---|
| SafeVault/SafeVault/Program.cs:28-29 | The valid issuer is read from `Jwt:Audience` and the valid audience from `Jwt:Issuer`, the reverse of how `AuthController.Login` fills the token (AuthController.cs:64-65). | Issuer `SafeVault`, audience `SafeVaultUsers`: the token issued by `login` is refused at the moment of issue. | Validate the issuer against `Jwt:Issuer` and the audience against `Jwt:Audience`, so that every issued token is accepted until it expires. | not executed | Authentication.ConfiguredRejectsFreshToken | Authentication.IntendedAcceptsIssuedTokens |

=== FILE: auth_controller.dfy ===
/**
 * `AuthController`: the `register` and `login` endpoints.  Registration
 * sanitizes and validates the form values before it reaches the service;
 * login authenticates and describes the JWT it issues.
 *
 * The JWT library is not modelled: the token the response carries is whatever
 * the `writeToken` parameter makes of the descriptor, the current time is the
 * `now` parameter (in .NET ticks of 100 ns), and the redirection URL that
 * `Url.Action` builds is the `redirectUrl` parameter.
 */
module Controllers {
  import opened Text
  import opened InputSanitizer
  import opened Repositories
  import opened Services

  /** `ClaimTypes.Name`. */
  const NameClaimType := "http://schemas.xmlsoap.org/ws/2005/05/identity/claims/name"
  /** `ClaimTypes.Role`. */
  const RoleClaimType := "http://schemas.microsoft.com/ws/2008/06/identity/claims/role"
  /** `SecurityAlgorithms.HmacSha256Signature`. */
  const HmacSha256Signature := "http://www.w3.org/2001/04/xmldsig-more#hmac-sha256"
  /** One hour in .NET ticks. */
  const TicksPerHour: int := 36_000_000_000

  /** The `Jwt:Secret`, `Jwt:Issuer` and `Jwt:Audience` configuration values. */
  datatype JwtSettings = JwtSettings(secret: string, issuer: string, audience: string)

  datatype Claim = Claim(claimType: string, value: string)

  /** The `SecurityTokenDescriptor` handed to the token handler. */
  datatype TokenDescriptor = TokenDescriptor(
    subject: seq<Claim>,
    expires: int,
    issuer: string,
    audience: string,
    signingKey: string,
    algorithm: string)

  /** The value of the first claim of the given type. */
  function ClaimValue(claims: seq<Claim>, claimType: string): (r: Option<string>)
    ensures r.Some? <==> exists i :: 0 <= i < |claims| && claims[i].claimType == claimType
    ensures r.Some? ==> exists i :: 0 <= i < |claims| && claims[i] == Claim(claimType, r.value)
  {
    if claims == [] then None
    else if claims[0].claimType == claimType then Some(claims[0].value)
    else
      var r := ClaimValue(claims[1..], claimType);
      assert forall i :: 1 <= i < |claims| ==> claims[i] == claims[1..][i - 1];
      r
  }

  /** The endpoint results, with the messages the controller puts in them. */
  datatype AuthResponse =
    | Ok(message: string)
    | BadRequest(error: string)
    | Unauthorized(error: string)
    | OkToken(token: string, redirectUrl: string)

  /**
   * The descriptor of the token issued to `user` at time `now`: its name and
   * role as the only claims, valid for one hour, bearing the configured issuer
   * and audience, signed with HMAC-SHA256 under the configured secret.
   */
  function Descriptor(user: User, settings: JwtSettings, now: int): (d: TokenDescriptor)
    ensures |d.subject| == 2
    ensures ClaimValue(d.subject, NameClaimType) == Some(user.username)
    ensures ClaimValue(d.subject, RoleClaimType) == Some(user.role)
    ensures d.expires - now == TicksPerHour
    ensures d.issuer == settings.issuer && d.audience == settings.audience
    ensures d.signingKey == settings.secret && d.algorithm == HmacSha256Signature
  {
    var claims := [Claim(NameClaimType, user.username), Claim(RoleClaimType, user.role)];
    assert claims[1..] == [Claim(RoleClaimType, user.role)];
    TokenDescriptor(claims, now + TicksPerHour, settings.issuer, settings.audience, settings.secret, HmacSha256Signature)
  }

  class AuthController {
    const service: UserService
    const settings: JwtSettings

    /**
     * Every username in the store passed the username check at registration.
     * A controller is made per request over the shared service, so the store
     * it starts from may already hold rows; they only need to keep this.
     */
    ghost predicate Valid()
      reads this, service, service.repository
    {
      && service.Valid()
      && forall name :: name in service.repository.users ==> UsernameOk(name)
    }

    constructor(service: UserService, settings: JwtSettings)
      requires service.Valid() && forall name :: name in service.repository.users ==> UsernameOk(name)
      ensures Valid() && this.service == service && this.settings == settings
    {
      this.service := service;
      this.settings := settings;
    }

    /**
     * `register`: reject values that do not validate after sanitizing, without
     * calling the service; otherwise register the sanitized username and e-mail
     * with the password and role as sent, and report any refusal of the service
     * with one and the same message.
     */
    method Register(username: string, email: string, password: string, role: string,
                    salt: string, lookupFault: bool, insertFault: bool) returns (response: AuthResponse)
      requires Valid()
      modifies service.repository
      ensures Valid()
      ensures var fw := service.repository.framework;
        var su, se := Sanitized(username, fw), Sanitized(email, fw);
        && (!(UsernameOk(su) && IsValidEmail(se, fw)) <==> response == BadRequest("Invalid input detected."))
        && (UsernameOk(su) && IsValidEmail(se, fw) && !response.Ok? ==>
              response == BadRequest("Username or email already exists."))
        && (response == Ok("User registered successfully.") <==>
              && UsernameOk(su) && IsValidEmail(se, fw)
              && old(service.repository.GetUser(su, lookupFault)).None? && !insertFault
              && Admissible(old(service.repository.users), service.NewUser(su, se, password, role, salt)))
        && (response.Ok? ==>
              service.repository.users == old(service.repository.users)[su := service.NewUser(su, se, password, role, salt)])
      ensures response in {Ok("User registered successfully."), BadRequest("Invalid input detected."),
                           BadRequest("Username or email already exists.")}
      ensures !response.Ok? ==> service.repository.users == old(service.repository.users)
    {
      var sanitizedUsername, sanitizedEmail, valid := ValidateAndSanitize(username, email, service.repository.framework);
      if !valid {
        return BadRequest("Invalid input detected.");
      }
      var registered := service.Register(sanitizedUsername, sanitizedEmail, password, role, salt, lookupFault, insertFault);
      if registered {
        return Ok("User registered successfully.");
      }
      return BadRequest("Username or email already exists.");
    }

    /**
     * `login`: one and the same refusal for an unknown name and a wrong
     * password; otherwise the token issued for the stored user at `now`.
     */
    function Login(username: string, password: string, fault: bool,
                   now: int, redirectUrl: string, writeToken: TokenDescriptor -> string): (response: AuthResponse)
      reads this, service, service.repository
      ensures response.Unauthorized? <==> service.Authenticate(username, password, fault).None?
      ensures response.Unauthorized? ==> response.error == "Invalid username or password."
      ensures !response.Unauthorized? ==> exists user ::
        && service.Authenticate(username, password, fault) == Some(user)
        && response == OkToken(writeToken(Descriptor(user, settings, now)), redirectUrl)
    {
      match service.Authenticate(username, password, fault)
      case None => Unauthorized("Invalid username or password.")
      case Some(user) => OkToken(writeToken(Descriptor(user, settings, now)), redirectUrl)
    }
  }

  /**
   * After a registration succeeds, logging in with the name and password as
   * sent yields a token for the stored (sanitized) username and the role as
   * sent: the login lookup sanitizes the raw name to the stored key.
   */
  lemma RegisteredUserLogsIn(controller: AuthController, username: string, email: string,
                             password: string, role: string, salt: string,
                             now: int, redirectUrl: string, writeToken: TokenDescriptor -> string)
    requires controller.Valid() && VerifiesOwnHashes(controller.service.hasher)
    requires var fw := controller.service.repository.framework;
      var su, se := Sanitized(username, fw), Sanitized(email, fw);
      su in controller.service.repository.users &&
      controller.service.repository.users[su] == controller.service.NewUser(su, se, password, role, salt)
    ensures var fw := controller.service.repository.framework;
      var user := controller.service.NewUser(Sanitized(username, fw), Sanitized(email, fw), password, role, salt);
      controller.Login(username, password, false, now, redirectUrl, writeToken) ==
        OkToken(writeToken(Descriptor(user, controller.settings, now)), redirectUrl)
  {
    var fw := controller.service.repository.framework;
    RegisteredUserAuthenticates(controller.service, username, Sanitized(email, fw), password, role, salt);
  }
}

=== FILE: input_sanitizer.dfy ===
/**
 * `InputSanitizer`: the sanitizing pipeline, the e-mail check and the
 * combined username/e-mail validation used at registration.
 *
 * `WebUtility.HtmlDecode` and the `System.Net.Mail.MailAddress` parser are
 * library code whose behaviour is not modelled: they are carried in a
 * `Framework` value that every operation takes as a parameter.
 */
module InputSanitizer {
  import opened Text
  import opened SanitizerStages

  /** The library routines the sanitizer calls. */
  datatype Framework = Framework(
    /** `WebUtility.HtmlDecode`. */
    htmlDecode: string -> string,
    /** `new MailAddress(s).Address`, or `None` when the constructor throws. */
    mailAddress: string -> Option<string>)

  /** `WebUtility.HtmlDecode` returns text holding no `&` unchanged; nothing else about it is assumed. */
  ghost predicate DecodesPlainText(fw: Framework) {
    forall s: string :: '&' !in s ==> fw.htmlDecode(s) == s
  }

  /** The stages before the keyword loop: script blocks, tags, handlers, then `'` and `;`. */
  function Stripped(decoded: string): (r: string)
    ensures ';' !in r && '\'' !in r
  {
    DropQuotes(StripHandlers(StripTags(StripScripts(decoded))))
  }

  /** The stages after `Stripped`: the keyword loop, then `--`, then the encoding. */
  function Finished(stripped: string): string {
    HtmlEncode(RemoveDoubleHyphens(RemoveKeywords(stripped, SqlKeywords)))
  }

  /** The value `SanitizeInput(input)` returns. */
  function Sanitized(input: string, fw: Framework): (r: string)
    ensures input == [] ==> r == input
    ensures Inert(r)
  {
    if input == [] then input
    else Finished(Stripped(fw.htmlDecode(input)))
  }

  /**
   * Whatever the decoder returns, the sanitized text holds no raw `<`, `>`,
   * `"` or `'` and no `--`, and the text the keyword loop hands on holds no
   * SQL keyword as a whole word.
   */
  lemma SanitizedIsSafe(input: string, fw: Framework)
    ensures Inert(Sanitized(input, fw)) && NoDoubleHyphen(Sanitized(input, fw))
    ensures '\'' !in Sanitized(input, fw)
    ensures forall i :: 0 <= i < 6 ==>
      NoWholeWord(RemoveKeywords(Stripped(fw.htmlDecode(input)), SqlKeywords), SqlKeywords[i])
  {
    var q := Stripped(fw.htmlDecode(input));
    KeywordLoopClears(q);
    DoubleHyphensGone(RemoveKeywords(q, SqlKeywords));
  }

  /**
   * `SanitizeInput`: decode, then rewrite `output` stage by stage, one pass
   * per entry of the keyword array, and encode.
   */
  method SanitizeInput(input: string, fw: Framework) returns (output: string)
    ensures output == Sanitized(input, fw)
    ensures input == [] ==> output == input
    ensures Inert(output) && NoDoubleHyphen(output)
  {
    if input == [] {
      return input;
    }
    var decodedInput := fw.htmlDecode(input);
    output := StripScripts(decodedInput);
    output := StripTags(output);
    output := StripHandlers(output);
    output := DropQuotes(output);
    ghost var quoted := output;
    var sqlKeywords := SqlKeywords;
    for i := 0 to |sqlKeywords|
      invariant output == RemoveKeywords(quoted, sqlKeywords[..i])
    {
      assert sqlKeywords[..i + 1][..i] == sqlKeywords[..i];
      output := RemoveKeyword(output, sqlKeywords[i], false);
    }
    assert sqlKeywords[..|sqlKeywords|] == SqlKeywords;
    output := RemoveDoubleHyphens(output);
    output := HtmlEncode(output);
    SanitizedIsSafe(input, fw);
  }

  /**
   * Text that no stage rewrites -- no markup or quote character, no `&`, no `;`,
   * no `--` and no SQL keyword anywhere, in any letter case -- comes back unchanged.
   */
  lemma PlainTextUnchanged(x: string, fw: Framework)
    requires DecodesPlainText(fw)
    requires forall i :: 0 <= i < |x| ==> !NeedsEncoding(x[i]) && x[i] != ';'
    requires NoDoubleHyphen(x)
    requires forall k, i :: 0 <= k < |SqlKeywords| && 0 <= i < |x| ==> !StartsWithIgnoreCase(x[i..], SqlKeywords[k])
    ensures Sanitized(x, fw) == x
  {
    if x != [] {
      assert fw.htmlDecode(x) == x;
      StripScriptsPlain(x);
      StripTagsPlain(x);
      StripHandlersPlain(x);
      DropQuotesPlain(x);
      RemoveKeywordsNowhere(x, SqlKeywords);
      DoubleHyphensPlain(x);
      HtmlEncodePlain(x);
    }
  }

  /**
   * `System.Net.Mail.MailAddress` accepts the text and gives back exactly the
   * same address.  Empty text, text the constructor refuses and text it reads
   * as some other address are all invalid.
   */
  predicate IsValidEmail(email: string, fw: Framework)
    ensures email == [] ==> !IsValidEmail(email, fw)
    ensures fw.mailAddress(email).None? ==> !IsValidEmail(email, fw)
    ensures fw.mailAddress(email).Some? && fw.mailAddress(email).value != email ==> !IsValidEmail(email, fw)
    ensures email != [] && fw.mailAddress(email) == Some(email) ==> IsValidEmail(email, fw)
  {
    email != [] && fw.mailAddress(email) == Some(email)
  }

  /** A character of the username class `[a-zA-Z0-9_\-]`. */
  predicate UsernameChar(c: char) {
    IsWordChar(c) || c == '-'
  }

  /**
   * `Regex.IsMatch(t, @"^[a-zA-Z0-9_\-]+$")`: one or more username characters;
   * `$` also matches just before a final line feed, so one may follow.
   */
  predicate UsernameOk(t: string)
    ensures UsernameOk(t) ==> t != [] && t != "\n"
    ensures UsernameOk(t) ==> forall i :: 0 <= i < |t| ==> UsernameChar(t[i]) || (i == |t| - 1 && t[i] == '\n')
    ensures t != [] && (forall i :: 0 <= i < |t| ==> UsernameChar(t[i])) ==> UsernameOk(t)
    ensures |t| >= 2 && t[|t| - 1] == '\n' && (forall i :: 0 <= i < |t| - 1 ==> UsernameChar(t[i])) ==> UsernameOk(t)
  {
    var body := if t != [] && t[|t| - 1] == '\n' then t[..|t| - 1] else t;
    body != [] && forall i :: 0 <= i < |body| ==> UsernameChar(body[i])
  }

  /**
   * Sanitizes both values and accepts them when the sanitized username has the
   * username shape and the sanitized e-mail parses back to itself.  An empty
   * username or e-mail is never accepted.
   */
  method ValidateAndSanitize(username: string, email: string, fw: Framework)
    returns (sanitizedUsername: string, sanitizedEmail: string, valid: bool)
    ensures sanitizedUsername == Sanitized(username, fw) && sanitizedEmail == Sanitized(email, fw)
    ensures valid <==> UsernameOk(sanitizedUsername) && IsValidEmail(sanitizedEmail, fw)
    ensures valid ==> username != [] && email != []
  {
    sanitizedUsername := SanitizeInput(username, fw);
    sanitizedEmail := SanitizeInput(email, fw);
    var usernameValid := UsernameOk(sanitizedUsername);
    var emailValid := IsValidEmail(sanitizedEmail, fw);
    valid := usernameValid && emailValid;
  }
}

=== FILE: sanitizer_examples.dfy ===
/**
 * The inputs of the sanitizer's unit tests, worked through the model, and the
 * pair of inputs that shows the sanitizer is not idempotent.  Each example
 * names its text through a parameter fixed by its precondition.
 */
module SanitizerExamples {
  import opened Text
  import opened SanitizerStages
  import opened InputSanitizer
  import Services

  /** No SQL keyword occurs, in any letter case, in the test username. */
  lemma NoKeywordInUsername(u: string)
    requires u == "Valid_User123"
    ensures forall k, i :: 0 <= k < |SqlKeywords| && 0 <= i < |u| ==> !StartsWithIgnoreCase(u[i..], SqlKeywords[k])
  {
    MissingLetter(u, "DROP", 2);
    MissingLetter(u, "TABLE", 0);
    MissingLetter(u, "INSERT", 1);
    MissingLetter(u, "DELETE", 4);
    MissingLetter(u, "UPDATE", 1);
    MissingLetter(u, "SELECT", 4);
    MissingLetter(u, ";", 0);
  }

  /** No SQL keyword occurs, in any letter case, in the test e-mail address. */
  lemma NoKeywordInEmail(e: string)
    requires e == "user@example.com"
    ensures forall k, i :: 0 <= k < |SqlKeywords| && 0 <= i < |e| ==> !StartsWithIgnoreCase(e[i..], SqlKeywords[k])
  {
    MissingLetter(e, "DROP", 0);
    MissingLetter(e, "TABLE", 0);
    MissingLetter(e, "INSERT", 0);
    MissingLetter(e, "DELETE", 0);
    MissingLetter(e, "UPDATE", 2);
    MissingLetter(e, "SELECT", 5);
    MissingLetter(e, ";", 0);
  }

  /** The test username passes every stage unchanged. */
  lemma UsernameUnchanged(u: string, fw: Framework)
    requires u == "Valid_User123" && DecodesPlainText(fw)
    ensures Sanitized(u, fw) == u
  {
    assert forall i :: 0 <= i < |u| ==> !NeedsEncoding(u[i]) && u[i] != ';';
    assert NoDoubleHyphen(u);
    NoKeywordInUsername(u);
    PlainTextUnchanged(u, fw);
  }

  /** The test e-mail address passes every stage unchanged. */
  lemma EmailUnchanged(e: string, fw: Framework)
    requires e == "user@example.com" && DecodesPlainText(fw)
    ensures Sanitized(e, fw) == e
  {
    assert forall i :: 0 <= i < |e| ==> !NeedsEncoding(e[i]) && e[i] != ';';
    assert NoDoubleHyphen(e);
    NoKeywordInEmail(e);
    PlainTextUnchanged(e, fw);
  }

  /** The well-formed registration values are accepted and decode back to themselves. */
  lemma ValidUsernameAndEmail(u: string, e: string, fw: Framework)
    requires u == "Valid_User123" && e == "user@example.com"
    requires DecodesPlainText(fw) && fw.mailAddress(e) == Some(e)
    ensures Sanitized(u, fw) == u && Sanitized(e, fw) == e
    ensures UsernameOk(Sanitized(u, fw)) && IsValidEmail(Sanitized(e, fw), fw)
    ensures fw.htmlDecode(Sanitized(u, fw)) == u && fw.htmlDecode(Sanitized(e, fw)) == e
  {
    UsernameUnchanged(u, fw);
    EmailUnchanged(e, fw);
    UsernameShape(u);
    NoEntityInEmail(e);
    assert fw.htmlDecode(u) == u && fw.htmlDecode(e) == e;
  }

  /** The test username has the username shape and holds no `&`. */
  lemma UsernameShape(u: string)
    requires u == "Valid_User123"
    ensures UsernameOk(u) && '&' !in u
  {
    assert forall i :: 0 <= i < |u| ==> UsernameChar(u[i]) && u[i] != '&';
  }

  lemma NoEntityInEmail(e: string)
    requires e == "user@example.com"
    ensures '&' !in e
  {
    assert forall i :: 0 <= i < |e| ==> e[i] != '&';
  }

  /** The script stage removes the test's script block with its content. */
  lemma ScriptBlockStripped(s: string)
    requires s == "<script>alert('XSS')</script>"
    ensures StripScripts(s) == []
  {
    var open, close, body := "<script", "</script>", "alert('XSS')";
    assert open + "" + ">" + body + close + "" == s;
    forall k | 0 <= k < |body|
      ensures !StartsWithIgnoreCase(body[k..] + ScriptClose, ScriptClose)
    {
      assert (body[k..] + ScriptClose)[..|ScriptClose|][0] == body[k];
    }
    ScriptBlockRemoved(open, "", body, close, "");
  }

  /** A script block, typed out or entity-encoded, is removed with its content. */
  lemma ScriptBlockInput(input: string, fw: Framework)
    requires input != []
    requires fw.htmlDecode(input) == "<script>alert('XSS')</script>"
    ensures Sanitized(input, fw) == []
  {
    ScriptBlockStripped(fw.htmlDecode(input));
    NothingAfterScripts(input, fw);
  }

  /** Input whose decoded form is all script blocks sanitizes to the empty string. */
  lemma NothingAfterScripts(input: string, fw: Framework)
    requires input != [] && StripScripts(fw.htmlDecode(input)) == []
    ensures Sanitized(input, fw) == []
  {
    var d := fw.htmlDecode(input);
    assert StripTags([]) == [] && StripHandlers([]) == [] && DropQuotes([]) == [];
    assert Stripped(d) == [];
    NothingAfterStripping(input, fw);
  }

  /** Input that nothing survives the stripping stages of sanitizes to the empty string. */
  lemma NothingAfterStripping(input: string, fw: Framework)
    requires input != [] && Stripped(fw.htmlDecode(input)) == []
    ensures Sanitized(input, fw) == []
  {
    RemoveKeywordsNowhere([], SqlKeywords);
    assert RemoveDoubleHyphens([]) == [] && HtmlEncode([]) == [];
  }

  /**
   * A lone tag: `<`, a name that does not open a script block, and no other `<`
   * or `>` before the closing `>`.
   */
  predicate LoneTag(s: string) {
    && |s| >= 3 && s[0] == '<' && s[1] != '>' && s[|s| - 1] == '>'
    && (forall i :: 1 <= i < |s| - 1 ==> s[i] != '<' && s[i] != '>')
    && !StartsWithIgnoreCase(s, ScriptOpen)
  }

  /** A lone tag holding no `&` is removed whole by the tag stage, attributes and handlers included. */
  lemma LoneTagRemoved(s: string, fw: Framework)
    requires LoneTag(s) && '&' !in s && DecodesPlainText(fw)
    ensures Sanitized(s, fw) == []
  {
    assert fw.htmlDecode(s) == s;
    StripScriptsPlain(s[1..]);
    assert [s[0]] + s[1..] == s;
    assert StripScripts(s) == s;
    assert IndexOf(s, '>', 2) == |s| - 1;
    assert TagLength(s) == Some(|s|);
    assert s[|s|..] == [];
    assert StripTags(s) == [];
    assert StripHandlers([]) == [];
    assert Stripped(s) == [];
    NothingAfterStripping(s, fw);
  }

  /** The test's image tag with an `onerror` handler is a lone tag without `&`. */
  lemma ImageTagIsLone(s: string)
    requires s == "<img src='x' onerror='alert(\"XSS\")'>"
    ensures LoneTag(s) && '&' !in s
  {
    ImageTagBody(s);
    ImageTagNotScript(s);
  }

  lemma ImageTagBody(s: string)
    requires s == "<img src='x' onerror='alert(\"XSS\")'>"
    ensures |s| >= 3 && s[0] == '<' && s[1] != '>' && s[|s| - 1] == '>'
    ensures forall i :: 1 <= i < |s| - 1 ==> s[i] != '<' && s[i] != '>'
    ensures '&' !in s
  {
  }

  lemma ImageTagNotScript(s: string)
    requires s == "<img src='x' onerror='alert(\"XSS\")'>"
    ensures !StartsWithIgnoreCase(s, ScriptOpen)
  {
    assert |ScriptOpen| == 7 && ScriptOpen[1] == 's';
    assert s[1] == 'i' && |s| >= 7;
    assert s[..7][1] == s[1];
  }

  /** So sanitizing it leaves nothing. */
  lemma ImageHandlerInput(s: string, fw: Framework)
    requires s == "<img src='x' onerror='alert(\"XSS\")'>"
    requires DecodesPlainText(fw)
    ensures Sanitized(s, fw) == []
  {
    ImageTagIsLone(s);
    LoneTagRemoved(s, fw);
  }

  /** Text made of letters and hyphens passes the four stripping stages unchanged. */
  lemma LettersStripped(s: string)
    requires forall i :: 0 <= i < |s| ==> IsWordChar(s[i]) || s[i] == '-'
    ensures Stripped(s) == s
  {
    StripScriptsPlain(s);
    StripTagsPlain(s);
    StripHandlersPlain(s);
    DropQuotesPlain(s);
  }

  /** For text that decodes and strips to itself, sanitizing is the keyword loop, the hyphen stage and encoding. */
  lemma SanitizedOfStripped(x: string, fw: Framework)
    requires x != [] && '&' !in x && DecodesPlainText(fw) && Stripped(x) == x
    ensures Sanitized(x, fw) == Finished(x)
  {
    assert fw.htmlDecode(x) == x;
  }

  /** `DROP` alone is a whole-word keyword: the first pass of the keyword loop removes it. */
  lemma DropKeywordLoop(s: string)
    requires s == "DROP"
    ensures RemoveKeywords(s, SqlKeywords) == []
  {
    var first, others := SqlKeywords[..1], SqlKeywords[1..];
    assert first + others == SqlKeywords;
    RemoveKeywordsAppend(s, first, others);
    assert RemoveKeywords(s, first) == RemoveKeyword(s, "DROP", false);
    assert s + [] == s;
    KeywordRunDropped(s, [], "DROP");
    RemoveKeywordsNowhere([], others);
  }

  /** So `DROP` sanitizes to nothing. */
  lemma DropRemoved(s: string, fw: Framework)
    requires s == "DROP" && DecodesPlainText(fw)
    ensures Sanitized(s, fw) == []
  {
    LettersStripped(s);
    SanitizedOfStripped(s, fw);
    DropKeywordLoop(s);
  }

  /** `DROP` does not occur, in any letter case, in `DR--OP`. */
  lemma NoDropInSplitWord(s: string)
    requires s == "DR--OP"
    ensures forall i :: 0 <= i < |s| ==> !StartsWithIgnoreCase(s[i..], "DROP")
  {
    assert s[..4][2] == '-';
    assert s[1..][..4][1] == '-';
    assert s[2..][..4][0] == '-';
  }

  /** No SQL keyword occurs, in any letter case, in `DR--OP`. */
  lemma NoKeywordInSplitWord(s: string)
    requires s == "DR--OP"
    ensures forall k, i :: 0 <= k < |SqlKeywords| && 0 <= i < |s| ==> !StartsWithIgnoreCase(s[i..], SqlKeywords[k])
  {
    NoDropInSplitWord(s);
    MissingLetter(s, "TABLE", 0);
    MissingLetter(s, "INSERT", 0);
    MissingLetter(s, "DELETE", 1);
    MissingLetter(s, "UPDATE", 0);
    MissingLetter(s, "SELECT", 0);
    MissingLetter(s, ";", 0);
  }

  /** The hyphen stage removes the `--` of `DR--OP`. */
  lemma SplitWordHyphens(s: string)
    requires s == "DR--OP"
    ensures RemoveDoubleHyphens(s) == "DROP"
  {
    var head, tail := s[..2], s[2..];
    assert head + tail == s;
    DoubleHyphensAppend(head, tail);
    DoubleHyphensPlain(head);
    assert tail[2..] == s[4..];
    DoubleHyphensPlain(s[4..]);
    assert head + s[4..] == "DROP";
  }

  /** The hyphen stage runs after the keyword loop, so `DR--OP` comes out as `DROP`. */
  lemma SplitWordJoined(s: string, fw: Framework)
    requires s == "DR--OP" && DecodesPlainText(fw)
    ensures Sanitized(s, fw) == "DROP"
  {
    LettersStripped(s);
    SanitizedOfStripped(s, fw);
    SplitWordLoop(s);
    SplitWordHyphens(s);
    DropEncoded("DROP");
  }

  /** `DROP` needs no encoding. */
  lemma DropEncoded(d: string)
    requires d == "DROP"
    ensures HtmlEncode(d) == d
  {
    HtmlEncodePlain(d);
  }

  /** The keyword loop leaves `DR--OP` as it is. */
  lemma SplitWordLoop(s: string)
    requires s == "DR--OP"
    ensures RemoveKeywords(s, SqlKeywords) == s
  {
    NoKeywordInSplitWord(s);
    RemoveKeywordsNowhere(s, SqlKeywords);
  }

  /**
   * Sanitizing is not idempotent: sanitizing the sanitized form of `DR--OP`
   * changes it again.
   */
  lemma NotIdempotent(s: string, fw: Framework)
    requires s == "DR--OP" && DecodesPlainText(fw)
    ensures Sanitized(s, fw) == "DROP"
    ensures Sanitized(Sanitized(s, fw), fw) == []
  {
    SplitWordJoined(s, fw);
    DropRemoved(Sanitized(s, fw), fw);
  }

  /*
   * The test's injection attempt `Robert'); DROP TABLE Users;--`, stage by
   * stage.  Long literals make the verifier evaluate every function applied to
   * them, so the text is handled as a concatenation of short pieces.
   */

  /** The quote stage turns the attempt into `Robert) DROP TABLE Users--`. */
  lemma InjectionQuotes(a: string, b: string, d: string, e: string, f: string)
    requires a == "Robert" && b == "');" && d == " DROP TABLE Users" && e == ";" && f == "--"
    ensures DropQuotes(a + (b + (d + (e + f)))) == a + ([')'] + (d + f))
  {
    DropQuotesPieces(a, b, d, e, f);
    DropQuotesPlain(a);
    DropQuotesPlain(d);
    DropQuotesPlain(f);
    QuotesDropped(b, e);
    assert [] + f == f;
  }

  /** The quote stage works piece by piece. */
  lemma DropQuotesPieces(a: string, b: string, d: string, e: string, f: string)
    ensures DropQuotes(a + (b + (d + (e + f)))) ==
      DropQuotes(a) + (DropQuotes(b) + (DropQuotes(d) + (DropQuotes(e) + DropQuotes(f))))
  {
    DropQuotesAppend(a, b + (d + (e + f)));
    DropQuotesAppend(b, d + (e + f));
    DropQuotesAppend(d, e + f);
    DropQuotesAppend(e, f);
  }

  /** `');` loses its quote and semicolon, and `;` vanishes. */
  lemma QuotesDropped(b: string, e: string)
    requires b == "');" && e == ";"
    ensures DropQuotes(b) == [')'] && DropQuotes(e) == []
  {
    assert e[0] == ';' && e[1..] == [];
    assert DropQuotes(e) == DropQuotes([]) == [];
    assert b[1..][0] == ')' && b[1..][1..] == e;
    assert DropQuotes(b[1..]) == [')'] + DropQuotes(e);
    assert b[0] == '\'';
    assert DropQuotes(b) == DropQuotes(b[1..]);
  }

  /** The attempt holds no `<` or `"`, so only the quote stage changes it before the keyword loop. */
  lemma InjectionStripped(a: string, b: string, d: string, e: string, f: string)
    requires a == "Robert" && b == "');" && d == " DROP TABLE Users" && e == ";" && f == "--"
    ensures Stripped(a + (b + (d + (e + f)))) == a + ([')'] + (d + f))
  {
    var s := a + (b + (d + (e + f)));
    assert forall i :: 0 <= i < |s| ==> s[i] != '<' && s[i] != '"';
    StripScriptsPlain(s);
    StripTagsPlain(s);
    StripHandlersPlain(s);
    InjectionQuotes(a, b, d, e, f);
  }

  /** A pass of a keyword over `a + u + rest` where it occurs only as the whole word `u`. */
  lemma KeywordPassOnce(a: string, u: string, rest: string, kw: string, j: nat)
    requires IsWord(kw) && EqualsIgnoreCase(u, kw)
    requires a != [] && !IsWordChar(a[|a| - 1]) && rest != [] && !IsWordChar(rest[0])
    requires j < |kw|
    requires forall i :: 0 <= i < |a| ==> Fold(a[i]) != Fold(kw[j])
    requires forall i :: 0 <= i < |rest| ==> Fold(rest[i]) != Fold(kw[j])
    ensures RemoveKeyword(a + (u + rest), kw, false) == a + rest
  {
    RemoveKeywordSplit(a, u + rest, kw, false);
    MissingLetter(a, kw, j);
    RemoveKeywordNowhere(a, kw, false);
    KeywordRunDropped(u, rest, kw);
    MissingLetter(rest, kw, j);
    RemoveKeywordNowhere(rest, kw, true);
  }

  /** The `DROP` pass removes the one `DROP`. */
  lemma InjectionDropPass(a: string, u: string, rest: string, kw: string)
    requires a == "Robert) " && u == "DROP" && rest == " TABLE Users--" && kw == "DROP"
    ensures RemoveKeyword(a + (u + rest), kw, false) == a + rest
  {
    KeywordPassOnce(a, u, rest, kw, 0);
  }

  /** The `TABLE` pass removes the one `TABLE`. */
  lemma InjectionTablePass(a: string, u: string, rest: string, kw: string)
    requires a == "Robert)  " && u == "TABLE" && rest == " Users--" && kw == "TABLE"
    ensures RemoveKeyword(a + (u + rest), kw, false) == a + rest
  {
    KeywordPassOnce(a, u, rest, kw, 1);
  }

  /** No later keyword of the loop occurs in what the first two passes leave. */
  lemma InjectionLaterPasses(a: string, rest: string, later: seq<string>)
    requires a == "Robert)  " && rest == " Users--" && later == SqlKeywords[2..]
    ensures RemoveKeywords(a + rest, later) == a + rest
  {
    var t := a + rest;
    MissingLetter(t, "INSERT", 0);
    MissingLetter(t, "DELETE", 0);
    MissingLetter(t, "UPDATE", 1);
    MissingLetter(t, "SELECT", 2);
    MissingLetter(t, ";", 0);
    assert later == ["INSERT", "DELETE", "UPDATE", "SELECT", ";"];
    RemoveKeywordsNowhere(t, later);
  }

  /** The keyword loop takes `Robert) DROP TABLE Users--` to `Robert)   Users--`. */
  lemma InjectionKeywordLoop(q: string, q1: string, q2: string,
                             a: string, u: string, rest: string, a1: string, u1: string, rest1: string)
    requires a == "Robert) " && u == "DROP" && rest == " TABLE Users--"
    requires a1 == "Robert)  " && u1 == "TABLE" && rest1 == " Users--"
    requires q == a + (u + rest) && q1 == a1 + (u1 + rest1) && q2 == a1 + rest1
    ensures RemoveKeywords(q, SqlKeywords) == q2
  {
    var first, second, later := SqlKeywords[..1], SqlKeywords[1..2], SqlKeywords[2..];
    assert first + (second + later) == SqlKeywords;
    RemoveKeywordsAppend(q, first, second + later);
    RemoveKeywordsAppend(RemoveKeywords(q, first), second, later);
    assert RemoveKeywords(q, first) == RemoveKeyword(q, first[0], false);
    InjectionDropPass(a, u, rest, first[0]);
    assert a + rest == q1;
    assert RemoveKeywords(q1, second) == RemoveKeyword(q1, second[0], false);
    InjectionTablePass(a1, u1, rest1, second[0]);
    InjectionLaterPasses(a1, rest1, later);
  }

  /** The hyphen stage drops the trailing `--`. */
  lemma InjectionHyphens(r: string, f: string)
    requires r == "Robert)   Users" && f == "--"
    ensures RemoveDoubleHyphens(r + f) == r
  {
    HyphenFreeResult(r);
    DoubleHyphensAppend(r, f);
    DoubleHyphensPlain(r);
    HyphenPairDropped(f);
  }

  lemma HyphenFreeResult(r: string)
    requires r == "Robert)   Users"
    ensures r[|r| - 1] != '-' && NoDoubleHyphen(r)
  {
  }

  lemma HyphenPairDropped(f: string)
    requires f == "--"
    ensures RemoveDoubleHyphens(f) == []
  {
    assert f[2..] == [];
  }

  /** How the output of the quote stage splits around `DROP`. */
  lemma StrippedPieces(a: string, d: string, f: string, a0: string, u0: string, rest0: string)
    requires a == "Robert" && d == " DROP TABLE Users" && f == "--"
    requires a0 == "Robert) " && u0 == "DROP" && rest0 == " TABLE Users--"
    ensures a + ([')'] + (d + f)) == a0 + (u0 + rest0)
  {
  }

  /** How the output of the keyword loop splits before the trailing `--`. */
  lemma LoopPieces(a1: string, rest1: string, r: string, f: string)
    requires a1 == "Robert)  " && rest1 == " Users--" && r == "Robert)   Users" && f == "--"
    ensures a1 + rest1 == r + f
    ensures forall i :: 0 <= i < |r| ==> !NeedsEncoding(r[i])
  {
  }

  /** The attempt holds no `&`, so the decoder returns it unchanged. */
  lemma InjectionDecoded(s: string, fw: Framework, a: string, b: string, d: string, e: string, f: string)
    requires a == "Robert" && b == "');" && d == " DROP TABLE Users" && e == ";" && f == "--"
    requires s == a + (b + (d + (e + f))) && DecodesPlainText(fw)
    ensures fw.htmlDecode(s) == s
  {
    assert '&' !in s;
  }

  /** Decoding and the stages before the keyword loop leave `Robert) DROP TABLE Users--`. */
  lemma InjectionBeforeLoop(s: string, fw: Framework, a: string, b: string, d: string, e: string, f: string,
                            a0: string, u0: string, rest0: string)
    requires a == "Robert" && b == "');" && d == " DROP TABLE Users" && e == ";" && f == "--"
    requires a0 == "Robert) " && u0 == "DROP" && rest0 == " TABLE Users--"
    requires s == a + (b + (d + (e + f))) && DecodesPlainText(fw)
    ensures Sanitized(s, fw) == Finished(a0 + (u0 + rest0))
  {
    InjectionDecoded(s, fw, a, b, d, e, f);
    InjectionStripped(a, b, d, e, f);
    StrippedPieces(a, d, f, a0, u0, rest0);
  }

  /** The keyword loop, the `--` stage and the encoding take that text to `Robert)   Users`. */
  lemma InjectionAfterStripping(a0: string, u0: string, rest0: string,
                                a1: string, u1: string, rest1: string, r: string, f: string)
    requires a0 == "Robert) " && u0 == "DROP" && rest0 == " TABLE Users--"
    requires a1 == "Robert)  " && u1 == "TABLE" && rest1 == " Users--" && r == "Robert)   Users" && f == "--"
    ensures Finished(a0 + (u0 + rest0)) == r
  {
    InjectionKeywordLoop(a0 + (u0 + rest0), a1 + (u1 + rest1), a1 + rest1, a0, u0, rest0, a1, u1, rest1);
    LoopPieces(a1, rest1, r, f);
    InjectionHyphens(r, f);
    HtmlEncodePlain(r);
  }

  /** The stages of the attempt, over its pieces. */
  lemma InjectionStages(s: string, fw: Framework, a: string, b: string, d: string, e: string, f: string,
                        a0: string, u0: string, rest0: string, a1: string, u1: string, rest1: string, r: string)
    requires a == "Robert" && b == "');" && d == " DROP TABLE Users" && e == ";" && f == "--"
    requires a0 == "Robert) " && u0 == "DROP" && rest0 == " TABLE Users--"
    requires a1 == "Robert)  " && u1 == "TABLE" && rest1 == " Users--" && r == "Robert)   Users"
    requires s == a + (b + (d + (e + f))) && DecodesPlainText(fw)
    ensures Sanitized(s, fw) == r
  {
    InjectionBeforeLoop(s, fw, a, b, d, e, f, a0, u0, rest0);
    InjectionAfterStripping(a0, u0, rest0, a1, u1, rest1, r, f);
  }

  /**
   * The test's injection attempt sanitizes to `Robert)   Users`: no quote, no
   * semicolon, no `--`, and neither `DROP` nor `TABLE`.
   */
  lemma InjectionInput(s: string, fw: Framework)
    requires s == "Robert'); DROP TABLE Users;--" && DecodesPlainText(fw)
    ensures Sanitized(s, fw) == "Robert)   Users"
  {
    InjectionStages(s, fw, "Robert", "');", " DROP TABLE Users", ";", "--",
                    "Robert) ", "DROP", " TABLE Users--", "Robert)  ", "TABLE", " Users--", "Robert)   Users");
  }

  /**
   * The duplicate check sanitizes a name that is already sanitized.  `DR--OP`
   * is stored as `DROP`, but registering `DROP` again looks up the sanitized
   * `DROP`, which is the empty name: the check finds nothing although the row
   * exists, and only the store's own constraint can refuse the insert.
   */
  lemma DuplicateCheckMisses(service: Services.UserService, name: string)
    requires name == "DROP" && DecodesPlainText(service.repository.framework)
    requires service.Valid() && name in service.repository.users && [] !in service.repository.users
    ensures service.repository.GetUser(name, false) == None
  {
    DropRemoved(name, service.repository.framework);
  }
}

=== FILE: sanitizer_stages.dfy ===
/**
 * The text rewrites that `InputSanitizer.SanitizeInput` chains together.  Each
 * `Regex.Replace(s, pattern, "")` scans `s` from the left: where the pattern
 * matches, the match is dropped and scanning resumes after it; elsewhere one
 * character is copied.  Every pattern but `\b` looks only forward, so a stage is
 * a recursion on the remaining suffix; the keyword stage also carries whether
 * the character before the suffix was a word character.
 */
module SanitizerStages {
  import opened Text

  // ---------------------------------------------------------------------------
  // <script[^>]*>[\s\S]*?</script>   (case-insensitive)
  // ---------------------------------------------------------------------------

  const ScriptOpen: string := "<script"
  const ScriptClose: string := "</script>"

  /** The length of the script block the pattern matches at the front of `s`, if any. */
  function ScriptBlockLength(s: string): (r: Option<nat>)
    ensures r.Some? ==> |ScriptOpen| < r.value <= |s|
  {
    if !StartsWithIgnoreCase(s, ScriptOpen) then None
    else
      var gt := IndexOf(s, '>', |ScriptOpen|);
      if gt == |s| then None
      else
        var close := IndexOfIgnoreCase(s, ScriptClose, gt + 1);
        if close == |s| then None else Some(close + |ScriptClose|)
  }

  function StripScripts(s: string): (r: string)
    ensures |r| <= |s|
    ensures forall c :: c in r ==> c in s
  {
    if s == [] then []
    else match ScriptBlockLength(s)
      case Some(n) => StripScripts(s[n..])
      case None => [s[0]] + StripScripts(s[1..])
  }

  /**
   * A script block at the front -- an opening tag in any letter case with any
   * attributes, any content, and the first closing tag after it -- is removed
   * together with its content.
   */
  lemma ScriptBlockRemoved(open: string, attrs: string, body: string, close: string, rest: string)
    requires EqualsIgnoreCase(open, ScriptOpen) && EqualsIgnoreCase(close, ScriptClose)
    requires forall i :: 0 <= i < |attrs| ==> attrs[i] != '>'
    requires forall k :: 0 <= k < |body| ==> !StartsWithIgnoreCase(body[k..] + close, ScriptClose)
    ensures StripScripts(open + attrs + ">" + body + close + rest) == StripScripts(rest)
  {
    var gt := |open| + |attrs|;
    var c := gt + 1 + |body|;
    ScriptOpenAt(open, attrs + ">" + body + close + rest);
    ScriptTagEnd(open, attrs, body, close, rest);
    ScriptCloseAt(open + attrs + ">", body, close, rest);
    ScriptBlockSkipped(open + attrs + ">" + body + close + rest, gt, c, rest);
  }

  lemma ScriptOpenAt(open: string, x: string)
    requires EqualsIgnoreCase(open, ScriptOpen)
    ensures StartsWithIgnoreCase(open + x, ScriptOpen)
  {
    assert (open + x)[..|ScriptOpen|] == open;
  }

  /** The first `>` after the opening `<script` ends the opening tag. */
  lemma ScriptTagEnd(open: string, attrs: string, body: string, close: string, rest: string)
    requires |open| == |ScriptOpen| && forall i :: 0 <= i < |attrs| ==> attrs[i] != '>'
    ensures IndexOf(open + attrs + ">" + body + close + rest, '>', |ScriptOpen|) == |open| + |attrs|
  {
    var s := open + attrs + ">" + body + close + rest;
    var gt := |open| + |attrs|;
    assert s[gt] == '>';
    assert forall m :: |ScriptOpen| <= m < gt ==> s[m] == attrs[m - |open|];
  }

  /**
   * The closing tag after the body is the first one after the opening tag, and
   * the rest follows it.
   */
  lemma ScriptCloseAt(head: string, body: string, close: string, rest: string)
    requires EqualsIgnoreCase(close, ScriptClose)
    requires forall k :: 0 <= k < |body| ==> !StartsWithIgnoreCase(body[k..] + close, ScriptClose)
    ensures IndexOfIgnoreCase(head + body + close + rest, ScriptClose, |head|) == |head| + |body|
    ensures (head + body + close + rest)[|head| + |body| + |ScriptClose|..] == rest
  {
    var s := head + body + close + rest;
    var c := |head| + |body|;
    assert s[c..][..|ScriptClose|] == close;
    forall m | |head| <= m < c
      ensures !StartsWithIgnoreCase(s[m..], ScriptClose)
    {
      var k := m - |head|;
      assert s[m..][..|ScriptClose|] == (body[k..] + close)[..|ScriptClose|];
    }
  }

  lemma ScriptBlockAt(s: string, gt: nat, c: nat)
    requires StartsWithIgnoreCase(s, ScriptOpen) && |ScriptOpen| <= gt < c <= |s|
    requires IndexOf(s, '>', |ScriptOpen|) == gt
    requires IndexOfIgnoreCase(s, ScriptClose, gt + 1) == c && c < |s|
    ensures ScriptBlockLength(s) == Some(c + |ScriptClose|)
  {
  }

  /** A script block found by its opening tag's end and its closing tag is dropped as a whole. */
  lemma ScriptBlockSkipped(s: string, gt: nat, c: nat, rest: string)
    requires StartsWithIgnoreCase(s, ScriptOpen) && |ScriptOpen| <= gt < c <= |s|
    requires IndexOf(s, '>', |ScriptOpen|) == gt
    requires IndexOfIgnoreCase(s, ScriptClose, gt + 1) == c && c < |s|
    requires s[c + |ScriptClose|..] == rest
    ensures StripScripts(s) == StripScripts(rest)
  {
    ScriptBlockAt(s, gt, c);
    StripScriptsSkip(s, c + |ScriptClose|, rest);
  }

  /** The script stage drops a script block at the front and goes on after it. */
  lemma StripScriptsSkip(s: string, k: nat, rest: string)
    requires s != [] && ScriptBlockLength(s) == Some(k) && s[k..] == rest
    ensures StripScripts(s) == StripScripts(rest)
  {
  }

  /** Text without `<` has no script block, and passes unchanged. */
  lemma {:induction false} StripScriptsPlain(s: string)
    requires forall i :: 0 <= i < |s| ==> s[i] != '<'
    ensures StripScripts(s) == s
  {
    if s != [] {
      if |s| >= |ScriptOpen| {
        assert Fold(s[..|ScriptOpen|][0]) != Fold(ScriptOpen[0]);
      }
      StripScriptsPlain(s[1..]);
    }
  }

  /** Text without `<` is copied as it is, and the stage goes on with what follows it. */
  lemma {:induction false} StripScriptsPrefix(p: string, s: string)
    requires forall i :: 0 <= i < |p| ==> p[i] != '<'
    ensures StripScripts(p + s) == p + StripScripts(s)
  {
    if p == [] {
      assert p + s == s;
    } else {
      StripScriptsPrefix(p[1..], s);
      StripScriptsCopiesFront(p[0], p[1..] + s);
      ConsOfTail(p, s);
      ConsOfTail(p, StripScripts(s));
    }
  }

  /** A first character other than `<` is copied. */
  lemma StripScriptsCopiesFront(c: char, rest: string)
    requires c != '<'
    ensures StripScripts([c] + rest) == [c] + StripScripts(rest)
  {
    var t := [c] + rest;
    assert t[0] == c && t[1..] == rest;
    if |t| >= |ScriptOpen| {
      assert Fold(t[..|ScriptOpen|][0]) != Fold(ScriptOpen[0]);
    }
  }

  /** A script block after text without `<` is removed, and the text before it is kept. */
  lemma ScriptBlockRemovedAfter(p: string, open: string, attrs: string, body: string, close: string, rest: string)
    requires forall i :: 0 <= i < |p| ==> p[i] != '<'
    requires EqualsIgnoreCase(open, ScriptOpen) && EqualsIgnoreCase(close, ScriptClose)
    requires forall i :: 0 <= i < |attrs| ==> attrs[i] != '>'
    requires forall k :: 0 <= k < |body| ==> !StartsWithIgnoreCase(body[k..] + close, ScriptClose)
    ensures StripScripts(p + (open + attrs + ">" + body + close + rest)) == p + StripScripts(rest)
  {
    StripScriptsPrefix(p, open + attrs + ">" + body + close + rest);
    ScriptBlockRemoved(open, attrs, body, close, rest);
  }

  // ---------------------------------------------------------------------------
  // <[^>]+>
  // ---------------------------------------------------------------------------

  /** The length of the tag the pattern matches at the front of `s`, if any. */
  function TagLength(s: string): (r: Option<nat>)
    ensures r.Some? ==> 2 < r.value <= |s|
  {
    if |s| < 2 || s[0] != '<' || s[1] == '>' then None
    else
      var gt := IndexOf(s, '>', 2);
      if gt == |s| then None else Some(gt + 1)
  }

  function StripTags(s: string): (r: string)
    ensures |r| <= |s|
    ensures forall c :: c in r ==> c in s
  {
    if s == [] then []
    else match TagLength(s)
      case Some(n) => StripTags(s[n..])
      case None => [s[0]] + StripTags(s[1..])
  }

  /** No position of `s` starts a match of `<[^>]+>`. */
  ghost predicate TagFree(s: string) {
    forall i :: 0 <= i < |s| ==> TagLength(s[i..]).None?
  }

  /** The tag stage leaves no tag behind: every `<` left is followed directly by `>` or by no `>` at all. */
  lemma {:induction false} StripTagsTagFree(s: string)
    ensures TagFree(StripTags(s))
  {
    if s != [] {
      match TagLength(s)
      case Some(n) => StripTagsTagFree(s[n..]);
      case None =>
        var r := StripTags(s[1..]);
        StripTagsTagFree(s[1..]);
        var t := [s[0]] + r;
        assert t == StripTags(s);
        if |s| >= 2 && s[0] == '<' && s[1] != '>' {
          // no `>` after the `<`, so none survives in the rest
          assert IndexOf(s, '>', 2) == |s|;
          assert TagLength(s[1..]).None?;
          assert r == [s[1]] + StripTags(s[2..]);
          assert forall x :: x in r[1..] ==> x in s[2..];
          assert '>' !in r[1..];
          assert IndexOf(t, '>', 2) == |t|;
        } else if |s| >= 2 && s[0] == '<' {
          assert s[1..][0] == '>';
          assert TagLength(s[1..]).None?;
          assert t[1] == '>';
        }
        forall i | 0 <= i < |t|
          ensures TagLength(t[i..]).None?
        {
          if i > 0 {
            assert t[i..] == r[i - 1..];
          }
        }
    }
  }

  /** Text without `<` has no tag, and passes unchanged. */
  lemma {:induction false} StripTagsPlain(s: string)
    requires forall i :: 0 <= i < |s| ==> s[i] != '<'
    ensures StripTags(s) == s
  {
    if s != [] {
      StripTagsPlain(s[1..]);
    }
  }

  // ---------------------------------------------------------------------------
  // on\w+\s*=\s*"[^"]+"   (case-insensitive)
  // ---------------------------------------------------------------------------

  /** `\s*"[^"]+"` at the front of `u`: the length of the quoted value with the white space before it. */
  function QuotedLength(u: string): (r: Option<nat>)
    ensures r.Some? ==> 0 < r.value <= |u|
  {
    var q := SpaceRun(u);
    if q + 1 >= |u| || u[q] != '"' || u[q + 1] == '"' then None
    else
      var close := IndexOf(u, '"', q + 2);
      if close == |u| then None else Some(close + 1)
  }

  /** `\s*=\s*"[^"]+"` at the front of `t`. */
  function AssignmentLength(t: string): (r: Option<nat>)
    ensures r.Some? ==> 0 < r.value <= |t|
  {
    var eq := SpaceRun(t);
    if eq == |t| || t[eq] != '=' then None
    else match QuotedLength(t[eq + 1..])
      case None => None
      case Some(n) => Some(eq + 1 + n)
  }

  /** The length of the event-handler attribute the pattern matches at the front of `s`, if any. */
  function HandlerLength(s: string): (r: Option<nat>)
    ensures r.Some? ==> 0 < r.value <= |s|
  {
    if |s| < 2 || Fold(s[0]) != 'o' || Fold(s[1]) != 'n' then None
    else
      var w := 2 + WordRun(s[2..]);
      if w == 2 then None
      else match AssignmentLength(s[w..])
        case None => None
        case Some(n) => Some(w + n)
  }

  function StripHandlers(s: string): (r: string)
    ensures |r| <= |s|
    ensures forall c :: c in r ==> c in s
  {
    if s == [] then []
    else match HandlerLength(s)
      case Some(n) => StripHandlers(s[n..])
      case None => [s[0]] + StripHandlers(s[1..])
  }

  lemma QuotedOf(u: string, sp: string, value: string, rest: string)
    requires AllSpace(sp)
    requires value != [] && forall i :: 0 <= i < |value| ==> value[i] != '"'
    requires u == sp + ['"'] + value + ['"'] + rest
    ensures QuotedLength(u) == Some(|sp| + |value| + 2)
  {
    SpaceRunOf(sp, ['"'] + value + ['"'] + rest);
    var q := |sp|;
    var close := q + 1 + |value|;
    assert u[q] == '"' && u[q + 1] == value[0] && u[close] == '"';
    assert forall m :: q + 1 <= m < close ==> u[m] == value[m - q - 1];
    assert IndexOf(u, '"', q + 2) == close;
  }

  lemma AssignmentOf(t: string, sp1: string, sp2: string, value: string, rest: string)
    requires AllSpace(sp1) && AllSpace(sp2)
    requires value != [] && forall i :: 0 <= i < |value| ==> value[i] != '"'
    requires t == sp1 + ['='] + (sp2 + ['"'] + value + ['"'] + rest)
    ensures AssignmentLength(t) == Some(|sp1| + |sp2| + |value| + 3)
  {
    var u := sp2 + ['"'] + value + ['"'] + rest;
    assert t == sp1 + (['='] + u);
    SpaceRunOf(sp1, ['='] + u);
    assert t[|sp1|] == '=';
    assert t[|sp1| + 1..] == u;
    QuotedOf(u, sp2, value, rest);
  }

  /**
   * An inline handler `on<name> = "<value>"` at the front -- `on` in any letter
   * case, a name of word characters, optional white space around `=`, and a
   * non-empty double-quoted value -- is removed.
   */
  lemma HandlerRemoved(on: string, name: string, sp1: string, sp2: string, value: string, rest: string)
    requires EqualsIgnoreCase(on, "on")
    requires name != [] && AllWord(name)
    requires AllSpace(sp1) && AllSpace(sp2)
    requires value != [] && forall i :: 0 <= i < |value| ==> value[i] != '"'
    ensures StripHandlers(on + name + sp1 + "=" + sp2 + "\"" + value + "\"" + rest) == StripHandlers(rest)
  {
    var u := sp2 + ['"'] + value + ['"'];
    var tail := sp1 + ['='] + (u + rest);
    HandlerShape(on, name, sp1, sp2, value, rest);
    AssignmentOf(tail, sp1, sp2, value, rest);
    SuffixAfter(tail, sp1 + ['='], u, rest);
    assert tail[0] == if sp1 == [] then '=' else sp1[0];
    HandlerOf(on + (name + tail), on, name, tail, |sp1| + |sp2| + |value| + 3, rest);
  }

  lemma HandlerShape(on: string, name: string, sp1: string, sp2: string, value: string, rest: string)
    ensures on + name + sp1 + "=" + sp2 + "\"" + value + "\"" + rest ==
      on + (name + (sp1 + ['='] + ((sp2 + ['"'] + value + ['"']) + rest)))
  {
  }

  /** `on`, a handler name, and an assignment of length `n` after it are dropped together. */
  lemma HandlerOf(s: string, on: string, name: string, tail: string, n: nat, rest: string)
    requires EqualsIgnoreCase(on, "on") && name != [] && AllWord(name)
    requires tail == [] || !IsWordChar(tail[0])
    requires s == on + (name + tail)
    requires AssignmentLength(tail) == Some(n) && n <= |tail| && tail[n..] == rest
    ensures StripHandlers(s) == StripHandlers(rest)
  {
    OnPrefix(s, on, name + tail);
    WordRunOf(name, tail);
    SuffixAfter(s, on, name, tail);
    var w := 2 + |name|;
    HandlerSpans(s, w, tail, n, rest);
  }

  /** A handler made of the prefix, a word run and an assignment is dropped as a whole. */
  lemma HandlerSpans(s: string, w: nat, tail: string, n: nat, rest: string)
    requires |s| >= 2 && Fold(s[0]) == 'o' && Fold(s[1]) == 'n'
    requires w == 2 + WordRun(s[2..]) && w > 2 && w <= |s|
    requires s[w..] == tail && AssignmentLength(tail) == Some(n) && n <= |tail| && tail[n..] == rest
    ensures StripHandlers(s) == StripHandlers(rest)
  {
    HandlerSpansLength(s, w, tail, n, rest);
    StripHandlersSkip(s, w + n, rest);
  }

  lemma HandlerSpansLength(s: string, w: nat, tail: string, n: nat, rest: string)
    requires |s| >= 2 && Fold(s[0]) == 'o' && Fold(s[1]) == 'n'
    requires w == 2 + WordRun(s[2..]) && w > 2 && w <= |s|
    requires s[w..] == tail && AssignmentLength(tail) == Some(n) && n <= |tail| && tail[n..] == rest
    ensures HandlerLength(s) == Some(w + n) && s[w + n..] == rest
  {
    HandlerAt(s, w);
  }

  /** The handler stage drops a handler at the front and goes on after it. */
  lemma StripHandlersSkip(s: string, k: nat, rest: string)
    requires s != [] && HandlerLength(s) == Some(k) && s[k..] == rest
    ensures StripHandlers(s) == StripHandlers(rest)
  {
  }

  /** Text with no character that folds to `o` is copied as it is, and the stage goes on with what follows it. */
  lemma {:induction false} StripHandlersPrefix(p: string, s: string)
    requires forall i :: 0 <= i < |p| ==> Fold(p[i]) != 'o'
    ensures StripHandlers(p + s) == p + StripHandlers(s)
  {
    if p == [] {
      assert p + s == s;
    } else {
      StripHandlersPrefix(p[1..], s);
      StripHandlersCopiesFront(p[0], p[1..] + s);
      ConsOfTail(p, s);
      ConsOfTail(p, StripHandlers(s));
    }
  }

  /** A first character that does not fold to `o` is copied. */
  lemma StripHandlersCopiesFront(c: char, rest: string)
    requires Fold(c) != 'o'
    ensures StripHandlers([c] + rest) == [c] + StripHandlers(rest)
  {
    var t := [c] + rest;
    assert t[0] == c && t[1..] == rest;
  }

  /** A handler after text with no character that folds to `o` is removed, and the text before it is kept. */
  lemma HandlerRemovedAfter(p: string, on: string, name: string, sp1: string, sp2: string, value: string, rest: string)
    requires forall i :: 0 <= i < |p| ==> Fold(p[i]) != 'o'
    requires EqualsIgnoreCase(on, "on")
    requires name != [] && AllWord(name)
    requires AllSpace(sp1) && AllSpace(sp2)
    requires value != [] && forall i :: 0 <= i < |value| ==> value[i] != '"'
    ensures StripHandlers(p + (on + name + sp1 + "=" + sp2 + "\"" + value + "\"" + rest)) == p + StripHandlers(rest)
  {
    StripHandlersPrefix(p, on + name + sp1 + "=" + sp2 + "\"" + value + "\"" + rest);
    HandlerRemoved(on, name, sp1, sp2, value, rest);
  }

  /** Past a prefix that folds to `on`, a handler is the word run and the assignment after it. */
  lemma HandlerAt(s: string, w: nat)
    requires |s| >= 2 && Fold(s[0]) == 'o' && Fold(s[1]) == 'n'
    requires w == 2 + WordRun(s[2..]) && w > 2
    ensures HandlerLength(s) == match AssignmentLength(s[w..]) case None => None case Some(n) => Some(w + n)
  {
  }

  /** A prefix equal to `on` up to letter case: the first two characters fold to `o` and `n`. */
  lemma OnPrefix(s: string, on: string, x: string)
    requires EqualsIgnoreCase(on, "on") && s == on + x
    ensures |s| >= 2 && Fold(s[0]) == 'o' && Fold(s[1]) == 'n' && s[2..] == x
  {
    assert Fold(on[0]) == Fold('o') && Fold(on[1]) == Fold('n');
  }

  lemma SuffixAfter(s: string, a: string, b: string, c: string)
    requires s == a + (b + c)
    ensures s[|a| + |b|..] == c
  {
  }

  /** Text without `"` has no handler attribute, and passes unchanged. */
  lemma {:induction false} StripHandlersPlain(s: string)
    requires forall i :: 0 <= i < |s| ==> s[i] != '"'
    ensures StripHandlers(s) == s
  {
    if s != [] {
      StripHandlersPlain(s[1..]);
    }
  }

  // ---------------------------------------------------------------------------
  // ([';])
  // ---------------------------------------------------------------------------

  /** Deletes every apostrophe and semicolon and keeps everything else in order. */
  function DropQuotes(s: string): (r: string)
    ensures forall c :: c in r <==> c in s && c != '\'' && c != ';'
  {
    if s == [] then []
    else if s[0] == '\'' || s[0] == ';' then DropQuotes(s[1..])
    else [s[0]] + DropQuotes(s[1..])
  }

  /** The quote stage works character by character, so it distributes over concatenation. */
  lemma {:induction false} DropQuotesAppend(a: string, b: string)
    ensures DropQuotes(a + b) == DropQuotes(a) + DropQuotes(b)
  {
    if a != [] {
      assert (a + b)[1..] == a[1..] + b;
      DropQuotesAppend(a[1..], b);
    } else {
      assert a + b == b;
    }
  }

  /** Text without `'` or `;` passes the quote stage unchanged. */
  lemma {:induction false} DropQuotesPlain(s: string)
    requires forall i :: 0 <= i < |s| ==> s[i] != '\'' && s[i] != ';'
    ensures DropQuotes(s) == s
  {
    if s != [] {
      DropQuotesPlain(s[1..]);
    }
  }

  // ---------------------------------------------------------------------------
  // \b<keyword>\b   (case-insensitive), once per keyword
  // ---------------------------------------------------------------------------

  /** A non-empty string of word characters, such as a SQL keyword. */
  predicate IsWord(w: string) {
    w != [] && AllWord(w)
  }

  /**
   * `\b<kw>\b` matches at the front of `s`; `prevWord` says whether the
   * character before `s` in the scanned text is a word character.
   */
  predicate KeywordAt(s: string, kw: string, prevWord: bool)
    requires kw != []
  {
    && StartsWithIgnoreCase(s, kw)
    && prevWord != IsWordChar(s[0])
    && IsWordChar(s[|kw| - 1]) != (|kw| < |s| && IsWordChar(s[|kw|]))
  }

  function RemoveKeyword(s: string, kw: string, prevWord: bool): (r: string)
    requires kw != []
    ensures forall c :: c in r ==> c in s
  {
    if s == [] then []
    else if KeywordAt(s, kw, prevWord) then RemoveKeyword(s[|kw|..], kw, IsWordChar(s[|kw| - 1]))
    else [s[0]] + RemoveKeyword(s[1..], kw, IsWordChar(s[0]))
  }

  /** `w` occurs in `t` at `j` as a whole word, in any letter case. */
  predicate WholeWordAt(t: string, w: string, j: int) {
    && 0 <= j && j + |w| <= |t|
    && EqualsIgnoreCase(t[j..j + |w|], w)
    && (j == 0 || !IsWordChar(t[j - 1]))
    && (j + |w| == |t| || !IsWordChar(t[j + |w|]))
  }

  ghost predicate NoWholeWord(t: string, w: string) {
    forall j :: !WholeWordAt(t, w, j)
  }

  /** `a + b` does not glue two word characters together. */
  predicate CleanJoin(a: string, b: string) {
    a == [] || b == [] || !IsWordChar(a[|a| - 1]) || !IsWordChar(b[0])
  }

  /** A string equal, up to letter case, to a string of word characters is one too. */
  lemma FoldedWord(x: string, w: string)
    requires AllWord(w)
    ensures EqualsIgnoreCase(x, w) ==> AllWord(x)
  {
    if EqualsIgnoreCase(x, w) {
      forall i | 0 <= i < |x| ensures IsWordChar(x[i]) {
        FoldKeepsWordness(x[i], w[i]);
      }
    }
  }

  /** The word-character run of `s` is exactly `k` long when `s[..k]` is all word characters and the next is not. */
  lemma WordRunExact(s: string, k: nat)
    requires k <= |s| && AllWord(s[..k])
    requires k == |s| || !IsWordChar(s[k])
    ensures WordRun(s) == k
  {
    assert s == s[..k] + s[k..];
    WordRunOf(s[..k], s[k..]);
  }

  /** A whole word of `a + b` lies in `a` or in `b` when the join is clean. */
  lemma ConcatNoWholeWord(a: string, b: string, w: string)
    requires IsWord(w) && CleanJoin(a, b)
    requires NoWholeWord(a, w) && NoWholeWord(b, w)
    ensures NoWholeWord(a + b, w)
  {
    forall j ensures !WholeWordAt(a + b, w, j) {
      if 0 <= j && j + |w| <= |a| + |b| {
        if j + |w| <= |a| {
          WholeWordInLeft(a, b, w, j);
        } else if j >= |a| {
          WholeWordInRight(a, b, w, j);
        } else {
          NoWholeWordAcross(a, b, w, j);
        }
      }
    }
  }

  lemma WholeWordInLeft(a: string, b: string, w: string, j: int)
    requires IsWord(w) && 0 <= j && j + |w| <= |a| && !WholeWordAt(a, w, j)
    ensures !WholeWordAt(a + b, w, j)
  {
    var t := a + b;
    assert t[j..j + |w|] == a[j..j + |w|];
    if j > 0 {
      assert t[j - 1] == a[j - 1];
    }
    if j + |w| < |a| {
      assert t[j + |w|] == a[j + |w|];
    }
  }

  lemma WholeWordInRight(a: string, b: string, w: string, j: int)
    requires IsWord(w) && |a| <= j && j + |w| <= |a| + |b| && !WholeWordAt(b, w, j - |a|)
    ensures !WholeWordAt(a + b, w, j)
  {
    var t := a + b;
    assert t[j..j + |w|] == b[j - |a|..j + |w| - |a|];
    if j > |a| {
      assert t[j - 1] == b[j - |a| - 1];
    }
    if j + |w| < |t| {
      assert t[j + |w|] == b[j + |w| - |a|];
    }
  }

  lemma NoWholeWordAcross(a: string, b: string, w: string, j: int)
    requires IsWord(w) && CleanJoin(a, b) && 0 <= j < |a| < j + |w| <= |a| + |b|
    ensures !WholeWordAt(a + b, w, j)
  {
    var t := a + b;
    var e := j + |w|;
    FoldedWord(t[j..e], w);
    assert t[j..e][|a| - 1 - j] == a[|a| - 1];
    assert t[j..e][|a| - j] == b[0];
  }

  /** A suffix cut at a clean point has no whole word that the string lacks. */
  lemma SuffixNoWholeWord(s: string, n: nat, w: string)
    requires IsWord(w) && n <= |s| && NoWholeWord(s, w)
    requires n == 0 || n == |s| || !IsWordChar(s[n - 1]) || !IsWordChar(s[n])
    ensures NoWholeWord(s[n..], w)
  {
    forall j ensures !WholeWordAt(s[n..], w, j) {
      if 0 <= j && j + |w| <= |s| - n {
        assert s[n..][j..j + |w|] == s[n + j..n + j + |w|];
        assert !WholeWordAt(s, w, n + j);
        FoldedWord(s[n + j..n + j + |w|], w);
        assert s[n + j..n + j + |w|][0] == s[n + j];
      }
    }
  }

  /** Inside a run of word characters only the whole run can be a whole word. */
  lemma WordRunWholeWords(u: string, w: string)
    requires IsWord(w) && AllWord(u) && !EqualsIgnoreCase(u, w)
    ensures NoWholeWord(u, w)
  {
    forall j ensures !WholeWordAt(u, w, j) {
      if 0 <= j && j + |w| <= |u| {
        if j > 0 {
          assert IsWordChar(u[j - 1]);
        } else if j + |w| < |u| {
          assert IsWordChar(u[j + |w|]);
        } else {
          assert u[j..j + |w|] == u;
        }
      }
    }
  }

  /** A single non-word character contains no word. */
  lemma NonWordNoWholeWord(c: char, w: string)
    requires IsWord(w) && !IsWordChar(c)
    ensures NoWholeWord([c], w)
  {
    forall j ensures !WholeWordAt([c], w, j) {
      if 0 <= j && j + |w| <= 1 {
        FoldedWord([c][j..j + |w|], w);
        assert [c][j..j + |w|][0] == c;
      }
    }
  }

  /** Inside a run of word characters `\b` fails, so the run is copied. */
  lemma {:induction false} KeywordCopiesRun(u: string, rest: string, kw: string)
    requires kw != [] && AllWord(u)
    requires rest == [] || !IsWordChar(rest[0])
    ensures RemoveKeyword(u + rest, kw, true) == u + RemoveKeyword(rest, kw, true)
  {
    if u != [] {
      var s := u + rest;
      assert s[0] == u[0] && s[1..] == u[1..] + rest;
      assert RemoveKeyword(s, kw, true) == [u[0]] + RemoveKeyword(u[1..] + rest, kw, true);
      KeywordCopiesRun(u[1..], rest, kw);
      var r := RemoveKeyword(rest, kw, true);
      assert [u[0]] + (u[1..] + r) == u + r;
    } else {
      assert u + rest == rest;
      assert u + RemoveKeyword(rest, kw, true) == RemoveKeyword(rest, kw, true);
    }
  }

  /** A keyword made of word characters never matches where a non-word character starts. */
  lemma KeywordSkipsNonWord(s: string, kw: string, prevWord: bool)
    requires IsWord(kw) && s != [] && !IsWordChar(s[0])
    ensures RemoveKeyword(s, kw, prevWord) == [s[0]] + RemoveKeyword(s[1..], kw, false)
  {
    if |kw| <= |s| {
      FoldedWord(s[..|kw|], kw);
      assert s[..|kw|][0] == s[0];
    }
  }

  /** Where a run of word characters starts, `\b<kw>\b` matches exactly when the run is the keyword. */
  lemma KeywordAtRun(s: string, kw: string, prevWord: bool)
    requires IsWord(kw) && s != [] && IsWordChar(s[0])
    ensures KeywordAt(s, kw, prevWord) <==> !prevWord && WordRun(s) == |kw| && EqualsIgnoreCase(s[..|kw|], kw)
  {
    if KeywordAt(s, kw, prevWord) {
      FoldedWord(s[..|kw|], kw);
      assert s[..|kw|][|kw| - 1] == s[|kw| - 1];
      WordRunExact(s, |kw|);
    }
    if WordRun(s) == |kw| {
      assert s[..WordRun(s)][|kw| - 1] == s[|kw| - 1];
    }
  }

  /** A run of word characters that is the keyword, in any letter case, is dropped. */
  lemma KeywordRunDropped(u: string, rest: string, kw: string)
    requires IsWord(kw) && EqualsIgnoreCase(u, kw)
    requires rest == [] || !IsWordChar(rest[0])
    ensures RemoveKeyword(u + rest, kw, false) == RemoveKeyword(rest, kw, true)
  {
    var s := u + rest;
    FoldedWord(u, kw);
    assert s[..|u|] == u;
    assert s[|u|..] == rest;
    assert KeywordAt(s, kw, false);
  }

  /** `\b<kw>\b` does not match at a run of word characters that is not the keyword. */
  lemma OtherRunNoMatch(u: string, rest: string, kw: string)
    requires IsWord(kw) && u != [] && AllWord(u) && !EqualsIgnoreCase(u, kw)
    requires rest == [] || !IsWordChar(rest[0])
    ensures !KeywordAt(u + rest, kw, false)
  {
    var s := u + rest;
    WordRunOf(u, rest);
    assert s[..|u|] == u;
    KeywordAtRun(s, kw, false);
  }

  /** Any other run of word characters is copied whole. */
  lemma OtherRunCopied(u: string, rest: string, kw: string)
    requires IsWord(kw) && u != [] && AllWord(u) && !EqualsIgnoreCase(u, kw)
    requires rest == [] || !IsWordChar(rest[0])
    ensures RemoveKeyword(u + rest, kw, false) == u + RemoveKeyword(rest, kw, true)
  {
    OtherRunNoMatch(u, rest, kw);
    KeywordCopiesFront(u + rest, kw);
    assert (u + rest)[1..] == u[1..] + rest;
    KeywordCopiesRun(u[1..], rest, kw);
    ConsOfTail(u, RemoveKeyword(rest, kw, true));
  }

  /** Where `\b<kw>\b` does not match, the pass copies the first character. */
  lemma KeywordCopiesFront(s: string, kw: string)
    requires kw != [] && s != [] && IsWordChar(s[0]) && !KeywordAt(s, kw, false)
    ensures RemoveKeyword(s, kw, false) == [s[0]] + RemoveKeyword(s[1..], kw, true)
  {
  }

  lemma ConsOfTail(u: string, r: string)
    requires u != []
    ensures [u[0]] + (u[1..] + r) == u + r
  {
  }

  /** A run of word characters that is not the keyword holds no whole word the pass must clear. */
  lemma LeadingRunNoWholeWord(s: string, kw: string, w: string)
    requires IsWord(kw) && IsWord(w) && s != [] && IsWordChar(s[0])
    requires EqualsIgnoreCase(w, kw) || NoWholeWord(s, w)
    requires !(WordRun(s) == |kw| && EqualsIgnoreCase(s[..WordRun(s)], kw))
    ensures NoWholeWord(s[..WordRun(s)], w)
  {
    var n := WordRun(s);
    var u := s[..n];
    assert s[0..n] == u;
    assert EqualsIgnoreCase(u, w) && EqualsIgnoreCase(w, kw) ==> EqualsIgnoreCase(u, kw);
    assert EqualsIgnoreCase(u, w) ==> WholeWordAt(s, w, 0);
    WordRunWholeWords(u, w);
  }

  /** After a non-word character the pass also starts with one. */
  lemma PassKeepsNonWordFront(rest: string, kw: string)
    requires IsWord(kw) && (rest == [] || !IsWordChar(rest[0]))
    ensures var r := RemoveKeyword(rest, kw, true); r == [] || !IsWordChar(r[0])
  {
    if rest != [] {
      KeywordSkipsNonWord(rest, kw, true);
    }
  }

  /**
   * One keyword pass removes every whole-word occurrence of its keyword and
   * creates no whole-word occurrence of any word.  `prevWord` and the front of
   * `s` must not glue two word characters (as at the start of the text).
   */
  lemma {:induction false} RemoveKeywordClears(s: string, kw: string, prevWord: bool, w: string)
    requires IsWord(kw) && IsWord(w)
    requires !prevWord || s == [] || !IsWordChar(s[0])
    requires EqualsIgnoreCase(w, kw) || NoWholeWord(s, w)
    ensures NoWholeWord(RemoveKeyword(s, kw, prevWord), w)
    decreases |s|
  {
    if s == [] {
      WordRunWholeWords([], w);
    } else if !IsWordChar(s[0]) {
      KeywordSkipsNonWord(s, kw, prevWord);
      if !EqualsIgnoreCase(w, kw) {
        SuffixNoWholeWord(s, 1, w);
      }
      RemoveKeywordClears(s[1..], kw, false, w);
      NonWordNoWholeWord(s[0], w);
      ConcatNoWholeWord([s[0]], RemoveKeyword(s[1..], kw, false), w);
    } else {
      var n := WordRun(s);
      var u, rest := s[..n], s[n..];
      if !EqualsIgnoreCase(w, kw) {
        SuffixNoWholeWord(s, n, w);
      }
      RemoveKeywordClears(rest, kw, true, w);
      assert s == u + rest;
      if n == |kw| && EqualsIgnoreCase(u, kw) {
        KeywordRunDropped(u, rest, kw);
      } else {
        OtherRunCopied(u, rest, kw);
        LeadingRunNoWholeWord(s, kw, w);
        PassKeepsNonWordFront(rest, kw);
        ConcatNoWholeWord(u, RemoveKeyword(rest, kw, true), w);
      }
    }
  }

  /** A pass over text where its keyword occurs nowhere, in any letter case, changes nothing. */
  lemma {:induction false} RemoveKeywordNowhere(s: string, kw: string, prevWord: bool)
    requires kw != []
    requires forall i :: 0 <= i < |s| ==> !StartsWithIgnoreCase(s[i..], kw)
    ensures RemoveKeyword(s, kw, prevWord) == s
  {
    if s != [] {
      assert s[0..] == s;
      forall i | 0 <= i < |s| - 1
        ensures !StartsWithIgnoreCase(s[1..][i..], kw)
      {
        assert s[1..][i..] == s[i + 1..];
      }
      RemoveKeywordNowhere(s[1..], kw, IsWordChar(s[0]));
    }
  }

  /** A keyword holding a letter that the text lacks, in either case, occurs nowhere in it. */
  lemma MissingLetter(s: string, kw: string, j: nat)
    requires j < |kw|
    requires forall i :: 0 <= i < |s| ==> Fold(s[i]) != Fold(kw[j])
    ensures forall i :: 0 <= i < |s| ==> !StartsWithIgnoreCase(s[i..], kw)
  {
    forall i | 0 <= i < |s|
      ensures !StartsWithIgnoreCase(s[i..], kw)
    {
      if |kw| <= |s| - i {
        assert s[i..][..|kw|][j] == s[i + j];
      }
    }
  }

  /**
   * A keyword of word characters cannot match across a non-word character, so a
   * pass splits after one: the second part starts with `prevWord` false.
   */
  lemma {:induction false} RemoveKeywordSplit(a: string, b: string, kw: string, prevWord: bool)
    requires IsWord(kw) && a != [] && !IsWordChar(a[|a| - 1])
    ensures RemoveKeyword(a + b, kw, prevWord) == RemoveKeyword(a, kw, prevWord) + RemoveKeyword(b, kw, false)
    decreases |a|
  {
    var s := a + b;
    KeywordAtJoin(a, b, kw, prevWord);
    if KeywordAt(a, kw, prevWord) {
      assert s[|kw| - 1] == a[|kw| - 1];
      RemoveKeywordSplit(a[|kw|..], b, kw, IsWordChar(a[|kw| - 1]));
    } else if |a| == 1 {
      assert s[1..] == b;
    } else {
      assert s[1..] == a[1..] + b;
      RemoveKeywordSplit(a[1..], b, kw, IsWordChar(a[0]));
    }
  }

  /**
   * Where `a` ends with a non-word character, `\b<kw>\b` matches at the front
   * of `a + b` exactly when it matches at the front of `a`, and then inside `a`.
   */
  lemma KeywordAtJoin(a: string, b: string, kw: string, prevWord: bool)
    requires IsWord(kw) && a != [] && !IsWordChar(a[|a| - 1])
    ensures KeywordAt(a + b, kw, prevWord) <==> KeywordAt(a, kw, prevWord)
    ensures KeywordAt(a, kw, prevWord) ==> |kw| < |a| && (a + b)[|kw|..] == a[|kw|..] + b
  {
    var s := a + b;
    if StartsWithIgnoreCase(s, kw) {
      FoldedWord(s[..|kw|], kw);
      assert forall j :: 0 <= j < |a| && j < |kw| ==> s[..|kw|][j] == a[j];
      assert |kw| < |a|;
      assert s[..|kw|] == a[..|kw|];
      assert s[|kw|..] == a[|kw|..] + b;
    }
    if StartsWithIgnoreCase(a, kw) {
      FoldedWord(a[..|kw|], kw);
      assert a[..|kw|][|kw| - 1] == a[|kw| - 1];
      assert |kw| < |a|;
      assert s[..|kw|] == a[..|kw|];
    }
  }

  /** The keywords, in the order the loop removes them. */
  const SqlKeywords: seq<string> := ["DROP", "TABLE", "INSERT", "DELETE", "UPDATE", "SELECT", ";"]

  /** The text after the keyword loop has run over `kws`, one pass per keyword. */
  function RemoveKeywords(s: string, kws: seq<string>): (r: string)
    requires forall i :: 0 <= i < |kws| ==> kws[i] != []
    ensures forall c :: c in r ==> c in s
  {
    if kws == [] then s
    else RemoveKeyword(RemoveKeywords(s, kws[..|kws| - 1]), kws[|kws| - 1], false)
  }

  /** The keyword loop changes nothing in text where no keyword occurs, in any letter case. */
  lemma {:induction false} RemoveKeywordsNowhere(s: string, kws: seq<string>)
    requires forall k :: 0 <= k < |kws| ==> kws[k] != []
    requires forall k, i :: 0 <= k < |kws| && 0 <= i < |s| ==> !StartsWithIgnoreCase(s[i..], kws[k])
    ensures RemoveKeywords(s, kws) == s
  {
    if kws != [] {
      var init := kws[..|kws| - 1];
      assert forall k :: 0 <= k < |init| ==> init[k] == kws[k];
      RemoveKeywordsNowhere(s, init);
      RemoveKeywordNowhere(s, kws[|kws| - 1], false);
    }
  }

  /** Running the loop over `a + b` is running it over `a`, then over `b`. */
  lemma {:induction false} RemoveKeywordsAppend(s: string, a: seq<string>, b: seq<string>)
    requires forall i :: 0 <= i < |a| ==> a[i] != []
    requires forall i :: 0 <= i < |b| ==> b[i] != []
    ensures RemoveKeywords(s, a + b) == RemoveKeywords(RemoveKeywords(s, a), b)
  {
    if b == [] {
      assert a + b == a;
    } else {
      var c := a + b;
      assert c[..|c| - 1] == a + b[..|b| - 1];
      assert c[|c| - 1] == b[|b| - 1];
      RemoveKeywordsAppend(s, a, b[..|b| - 1]);
    }
  }

  /** The keyword list as the loop sees it: six words, then `;`. */
  predicate KeywordListShape(kws: seq<string>) {
    && |kws| == 7
    && (forall i :: 0 <= i < 6 ==> IsWord(kws[i]))
    && kws[6] == [';']
  }

  lemma SqlKeywordsShape()
    ensures KeywordListShape(SqlKeywords)
  {
  }

  /**
   * Right after the keyword loop, and provided no `;` reached it (the previous
   * stage deletes them), no SQL keyword is left as a whole word in any letter case.
   */
  lemma KeywordLoopClears(s: string)
    requires ';' !in s
    ensures ';' !in RemoveKeywords(s, SqlKeywords)
    ensures forall i :: 0 <= i < 6 ==> NoWholeWord(RemoveKeywords(s, SqlKeywords), SqlKeywords[i])
  {
    SqlKeywordsShape();
    KeywordPrefixClears(s, SqlKeywords, 7);
    assert SqlKeywords[..7] == SqlKeywords;
  }

  /**
   * After the first `n` passes no `;` has appeared and each keyword already
   * removed stays absent as a whole word.
   */
  lemma {:induction false} KeywordPrefixClears(s: string, kws: seq<string>, n: nat)
    requires ';' !in s && KeywordListShape(kws) && n <= 7
    ensures forall i :: 0 <= i < n ==> kws[..n][i] != []
    ensures ';' !in RemoveKeywords(s, kws[..n])
    ensures forall i :: 0 <= i < n && i < 6 ==> NoWholeWord(RemoveKeywords(s, kws[..n]), kws[i])
  {
    if n > 0 {
      KeywordPrefixClears(s, kws, n - 1);
      var before := RemoveKeywords(s, kws[..n - 1]);
      var kw := kws[n - 1];
      LastPass(s, kws[..n]);
      assert kws[..n][..n - 1] == kws[..n - 1];
      if n == 7 {
        MissingLetter(before, kw, 0);
        RemoveKeywordNowhere(before, kw, false);
      } else {
        PassKeepsClear(before, kws, n);
      }
    }
  }

  /** The loop over a non-empty list ends with the pass for its last keyword. */
  lemma LastPass(s: string, kws: seq<string>)
    requires kws != [] && forall i :: 0 <= i < |kws| ==> kws[i] != []
    ensures RemoveKeywords(s, kws) == RemoveKeyword(RemoveKeywords(s, kws[..|kws| - 1]), kws[|kws| - 1], false)
  {
  }

  /** The pass for the `n`-th keyword keeps the earlier keywords absent and clears its own. */
  lemma PassKeepsClear(before: string, kws: seq<string>, n: nat)
    requires 0 < n <= 6 && n <= |kws| && forall i :: 0 <= i < n ==> IsWord(kws[i])
    requires IsWord(kws[n - 1]) && forall i :: 0 <= i < n - 1 ==> NoWholeWord(before, kws[i])
    ensures forall i :: 0 <= i < n ==> NoWholeWord(RemoveKeyword(before, kws[n - 1], false), kws[i])
  {
    forall i | 0 <= i < n
      ensures NoWholeWord(RemoveKeyword(before, kws[n - 1], false), kws[i])
    {
      RemoveKeywordClears(before, kws[n - 1], false, kws[i]);
    }
  }

  // ---------------------------------------------------------------------------
  // --
  // ---------------------------------------------------------------------------

  function RemoveDoubleHyphens(s: string): (r: string)
    ensures |r| <= |s|
    ensures forall c :: c in r ==> c in s
  {
    if |s| >= 2 && s[0] == '-' && s[1] == '-' then RemoveDoubleHyphens(s[2..])
    else if s == [] then []
    else [s[0]] + RemoveDoubleHyphens(s[1..])
  }

  predicate NoDoubleHyphen(t: string) {
    forall i :: 0 <= i < |t| - 1 ==> t[i] != '-' || t[i + 1] != '-'
  }

  /** Left-to-right removal of `--` leaves no `--`: of a run of hyphens at most one survives. */
  lemma {:induction false} DoubleHyphensGone(s: string)
    ensures NoDoubleHyphen(RemoveDoubleHyphens(s))
  {
    if |s| >= 2 && s[0] == '-' && s[1] == '-' {
      DoubleHyphensGone(s[2..]);
    } else if s != [] {
      DoubleHyphensGone(s[1..]);
      var r := RemoveDoubleHyphens(s[1..]);
      if s[0] == '-' && r != [] {
        assert s[1] != '-';
        assert r[0] == s[1];
      }
      assert RemoveDoubleHyphens(s) == [s[0]] + r;
    }
  }

  /** `a + b` has `--` exactly when `a` or `b` has, or `a` ends and `b` starts with `-`. */
  lemma HyphenJoin(a: string, b: string)
    ensures NoDoubleHyphen(a + b) <==>
      NoDoubleHyphen(a) && NoDoubleHyphen(b) && !(a != [] && b != [] && a[|a| - 1] == '-' && b[0] == '-')
  {
    var t := a + b;
    if NoDoubleHyphen(t) {
      forall i | 0 <= i < |a| - 1 ensures a[i] != '-' || a[i + 1] != '-' {
        assert t[i] == a[i] && t[i + 1] == a[i + 1];
      }
      forall i | 0 <= i < |b| - 1 ensures b[i] != '-' || b[i + 1] != '-' {
        assert t[|a| + i] == b[i] && t[|a| + i + 1] == b[i + 1];
      }
      if a != [] && b != [] {
        assert t[|a| - 1] == a[|a| - 1] && t[|a|] == b[0];
      }
    }
  }

  /** No `--` straddles a point that a hyphen does not precede, so the stage splits there. */
  lemma {:induction false} DoubleHyphensAppend(a: string, b: string)
    requires a == [] || a[|a| - 1] != '-'
    ensures RemoveDoubleHyphens(a + b) == RemoveDoubleHyphens(a) + RemoveDoubleHyphens(b)
  {
    var s := a + b;
    if a == [] {
      assert s == b;
    } else if |a| >= 2 && a[0] == '-' && a[1] == '-' {
      assert s[2..] == a[2..] + b;
      DoubleHyphensAppend(a[2..], b);
    } else if |a| == 1 {
      assert s[1..] == b;
    } else {
      assert s[1..] == a[1..] + b;
      DoubleHyphensAppend(a[1..], b);
    }
  }

  /** Text without `--` passes the hyphen stage unchanged. */
  lemma {:induction false} DoubleHyphensPlain(s: string)
    requires NoDoubleHyphen(s)
    ensures RemoveDoubleHyphens(s) == s
  {
    if s != [] {
      assert NoDoubleHyphen(s[1..]) by {
        forall i | 0 <= i < |s| - 2 ensures s[1..][i] != '-' || s[1..][i + 1] != '-' {
          assert s[1..][i] == s[i + 1] && s[1..][i + 1] == s[i + 2];
        }
      }
      DoubleHyphensPlain(s[1..]);
    }
  }

  /** The characters other than `-` in `s`, in order. */
  function NonHyphens(s: string): string
  {
    if s == [] then [] else (if s[0] == '-' then [] else [s[0]]) + NonHyphens(s[1..])
  }

  /** Only hyphens are removed: every other character is kept, in order. */
  lemma {:induction false} DoubleHyphensOnlyHyphens(s: string)
    ensures NonHyphens(RemoveDoubleHyphens(s)) == NonHyphens(s)
  {
    if |s| >= 2 && s[0] == '-' && s[1] == '-' {
      DoubleHyphensOnlyHyphens(s[2..]);
      assert NonHyphens(s) == NonHyphens(s[1..]);
      assert s[1..][1..] == s[2..];
    } else if s != [] {
      DoubleHyphensOnlyHyphens(s[1..]);
      assert ([s[0]] + RemoveDoubleHyphens(s[1..]))[1..] == RemoveDoubleHyphens(s[1..]);
    }
  }

  // ---------------------------------------------------------------------------
  // WebUtility.HtmlEncode
  // ---------------------------------------------------------------------------

  /** No character an HTML parser would read as markup or as the end of an attribute. */
  predicate Inert(t: string) {
    forall i :: 0 <= i < |t| ==> t[i] != '<' && t[i] != '>' && t[i] != '"' && t[i] != '\''
  }

  /** The characters `WebUtility.HtmlEncode` rewrites. */
  predicate NeedsEncoding(c: char) {
    c == '<' || c == '>' || c == '"' || c == '\'' || c == '&'
    || (160 <= c as int < 256) || c as int >= 0x1_0000
  }

  function EncodeChar(c: char): (r: string)
    ensures Inert(r) && r != []
    ensures c == '-' ==> r == "-"
    ensures c != '-' ==> '-' !in r
    ensures !NeedsEncoding(c) ==> r == [c]
  {
    if c == '<' then "&lt;"
    else if c == '>' then "&gt;"
    else if c == '"' then "&quot;"
    else if c == '\'' then "&#39;"
    else if c == '&' then "&amp;"
    else if (160 <= c as int < 256) || c as int >= 0x1_0000 then "&#" + NatToDecimal(c as int) + ";"
    else [c]
  }

  /**
   * The encoded text holds no raw `<`, `>`, `"` or `'`; it starts with `-`
   * exactly when the text does, and it has `--` exactly when the text does.
   */
  function HtmlEncode(s: string): (r: string)
    ensures Inert(r)
    ensures (r != [] && r[0] == '-') <==> (s != [] && s[0] == '-')
    ensures NoDoubleHyphen(r) <==> NoDoubleHyphen(s)
  {
    if s == [] then []
    else
      var head, tail := EncodeChar(s[0]), HtmlEncode(s[1..]);
      assert s == [s[0]] + s[1..];
      HyphenJoin([s[0]], s[1..]);
      HyphenJoin(head, tail);
      head + tail
  }

  /** Text that needs no encoding is written out unchanged. */
  lemma {:induction false} HtmlEncodePlain(s: string)
    requires forall i :: 0 <= i < |s| ==> !NeedsEncoding(s[i])
    ensures HtmlEncode(s) == s
  {
    if s != [] {
      HtmlEncodePlain(s[1..]);
    }
  }
}

=== FILE: text.dfy ===
/**
 * Character classes, case folding and small string utilities shared by the
 * sanitizer and the two HTTP services.  Strings are `seq<char>`; a `char` is a
 * Unicode scalar value.
 */
module Text {

  /** A value that may be absent (a C# null reference or a failed lookup). */
  datatype Option<+T> = None | Some(value: T)

  /** Regex `\w`, restricted to ASCII: `[A-Za-z0-9_]`. */
  predicate IsWordChar(c: char) {
    ('a' <= c <= 'z') || ('A' <= c <= 'Z') || ('0' <= c <= '9') || c == '_'
  }

  /**
   * Regex `\s` and `char.IsWhiteSpace`: the control characters U+0009..U+000D,
   * U+0085, and the Unicode space, line and paragraph separators.
   */
  predicate IsSpace(c: char) {
    || ('\t' <= c <= '\r')
    || c == ' '
    || c == '\U{85}'
    || c == '\U{A0}'
    || c == '\U{1680}'
    || ('\U{2000}' <= c <= '\U{200A}')
    || c == '\U{2028}'
    || c == '\U{2029}'
    || c == '\U{202F}'
    || c == '\U{205F}'
    || c == '\U{3000}'
  }

  predicate AllWord(s: string) {
    forall i :: 0 <= i < |s| ==> IsWordChar(s[i])
  }

  predicate AllSpace(s: string) {
    forall i :: 0 <= i < |s| ==> IsSpace(s[i])
  }

  /** Case folding of the ASCII letters; every other character folds to itself. */
  function Fold(c: char): (d: char)
    ensures 'A' <= c <= 'Z' ==> 'a' <= d <= 'z' && d as int == c as int + 32
    ensures !('A' <= c <= 'Z') ==> d == c
  {
    if 'A' <= c <= 'Z' then (c as int + 32) as char else c
  }

  /** Characters that fold to the same character are both word characters or neither. */
  lemma FoldKeepsWordness(c: char, d: char)
    requires Fold(c) == Fold(d)
    ensures IsWordChar(c) <==> IsWordChar(d)
  {
  }

  /** Case-insensitive equality of two strings of the same length. */
  predicate EqualsIgnoreCase(a: string, b: string) {
    |a| == |b| && forall i :: 0 <= i < |a| ==> Fold(a[i]) == Fold(b[i])
  }

  /** `s` begins with `p`, compared case-insensitively. */
  predicate StartsWithIgnoreCase(s: string, p: string) {
    |p| <= |s| && EqualsIgnoreCase(s[..|p|], p)
  }

  /** The index of the first `c` in `s` at or after `from`, or `|s|` when there is none. */
  function IndexOf(s: string, c: char, from: nat): (k: nat)
    requires from <= |s|
    ensures from <= k <= |s|
    ensures k < |s| ==> s[k] == c
    ensures forall m :: from <= m < k ==> s[m] != c
    decreases |s| - from
  {
    if from == |s| then |s|
    else if s[from] == c then from
    else IndexOf(s, c, from + 1)
  }

  /**
   * The index of the first case-insensitive occurrence of `p` in `s` at or
   * after `from`, or `|s|` when there is none.
   */
  function IndexOfIgnoreCase(s: string, p: string, from: nat): (k: nat)
    requires from <= |s|
    ensures from <= k <= |s|
    ensures k < |s| ==> StartsWithIgnoreCase(s[k..], p)
    ensures forall m :: from <= m < k ==> !StartsWithIgnoreCase(s[m..], p)
    decreases |s| - from
  {
    if from == |s| then |s|
    else if StartsWithIgnoreCase(s[from..], p) then from
    else IndexOfIgnoreCase(s, p, from + 1)
  }

  /** The length of the longest prefix of `s` made of word characters. */
  function WordRun(s: string): (n: nat)
    ensures n <= |s| && AllWord(s[..n])
    ensures n < |s| ==> !IsWordChar(s[n])
  {
    if s == [] || !IsWordChar(s[0]) then 0 else 1 + WordRun(s[1..])
  }

  /** The length of the longest prefix of `s` made of white space. */
  function SpaceRun(s: string): (n: nat)
    ensures n <= |s| && AllSpace(s[..n])
    ensures n < |s| ==> !IsSpace(s[n])
  {
    if s == [] || !IsSpace(s[0]) then 0 else 1 + SpaceRun(s[1..])
  }

  /** The length of the longest suffix of `s` made of white space. */
  function TrailingSpace(s: string): (n: nat)
    ensures n <= |s| && AllSpace(s[|s| - n..])
    ensures n < |s| ==> !IsSpace(s[|s| - 1 - n])
  {
    if s == [] || !IsSpace(s[|s| - 1]) then 0 else 1 + TrailingSpace(s[..|s| - 1])
  }

  /** `string.Trim()`: drop leading and trailing white space. */
  function Trim(s: string): (r: string)
    ensures exists a, b :: 0 <= a <= b <= |s| && r == s[a..b] && AllSpace(s[..a]) && AllSpace(s[b..])
    ensures r != [] ==> !IsSpace(r[0]) && !IsSpace(r[|r| - 1])
  {
    var a := SpaceRun(s);
    var n := TrailingSpace(s[a..]);
    TrimBounds(s, a, n);
    s[a..|s| - n]
  }

  /**
   * The bounds `Trim` cuts at: a leading run of `a` and, after it, a trailing
   * run of `n` white-space characters leave no white space at either end of
   * what lies between.
   */
  lemma TrimBounds(s: string, a: nat, n: nat)
    requires a <= |s| && AllSpace(s[..a]) && (a < |s| ==> !IsSpace(s[a]))
    requires n <= |s[a..]| && AllSpace(s[a..][|s[a..]| - n..])
    requires n < |s[a..]| ==> !IsSpace(s[a..][|s[a..]| - 1 - n])
    ensures a <= |s| - n && AllSpace(s[|s| - n..])
    ensures a < |s| - n ==> !IsSpace(s[a]) && !IsSpace(s[|s| - n - 1])
  {
    var u, v := s[a..], s[|s| - n..];
    forall i | 0 <= i < |v|
      ensures IsSpace(v[i])
    {
      assert v[i] == u[|u| - n..][i];
    }
    if n < |u| {
      assert s[|s| - n - 1] == u[|u| - 1 - n];
    }
  }

  /** Every string is its trimmed form padded with white space on both sides. */
  lemma TrimParts(s: string) returns (before: string, after: string)
    ensures AllSpace(before) && AllSpace(after) && s == before + Trim(s) + after
  {
    var a := SpaceRun(s);
    var n := TrailingSpace(s[a..]);
    TrimBounds(s, a, n);
    before, after := s[..a], s[|s| - n..];
    ThreeParts(s, a, |s| - n);
  }

  lemma ThreeParts(s: string, i: int, j: int)
    requires 0 <= i <= j <= |s|
    ensures s == s[..i] + s[i..j] + s[j..]
  {
  }

  /** The word run of `u + x` is `u` when `u` is all word characters and `x` does not go on with one. */
  lemma {:induction false} WordRunOf(u: string, x: string)
    requires AllWord(u) && (x == [] || !IsWordChar(x[0]))
    ensures WordRun(u + x) == |u|
  {
    if u != [] {
      assert (u + x)[1..] == u[1..] + x;
      WordRunOf(u[1..], x);
    }
  }

  /** The white-space run of `u + x` is `u` when `u` is all white space and `x` does not go on with one. */
  lemma {:induction false} SpaceRunOf(u: string, x: string)
    requires AllSpace(u) && (x == [] || !IsSpace(x[0]))
    ensures SpaceRun(u + x) == |u|
  {
    if u != [] {
      assert (u + x)[1..] == u[1..] + x;
      SpaceRunOf(u[1..], x);
    }
  }

  /** The trailing white space of `u + x` is `x` when `x` is all white space and `u` does not end with one. */
  lemma {:induction false} TrailingSpaceOf(u: string, x: string)
    requires AllSpace(x) && (u == [] || !IsSpace(u[|u| - 1]))
    ensures TrailingSpace(u + x) == |x|
    decreases |x|
  {
    if x != [] {
      var x' := x[..|x| - 1];
      assert (u + x)[..|u + x| - 1] == u + x';
      TrailingSpaceOf(u, x');
    } else {
      assert u + x == u;
    }
  }

  /** Trimming `a + t + b` yields `t` when `a` and `b` are white space and `t` is not padded. */
  lemma TrimPadded(a: string, t: string, b: string)
    requires AllSpace(a) && AllSpace(b)
    requires t != [] ==> !IsSpace(t[0]) && !IsSpace(t[|t| - 1])
    ensures Trim(a + t + b) == t
  {
    var s := a + t + b;
    if t == [] {
      assert s == (a + b) + [];
      assert AllSpace(a + b);
      SpaceRunOf(a + b, []);
      assert s[|s|..] == [];
    } else {
      assert s == a + (t + b);
      SpaceRunOf(a, t + b);
      assert s[|a|..] == t + b;
      TrailingSpaceOf(t, b);
      assert s[|a|..|s| - |b|] == t;
    }
  }

  /** A digit character. */
  function Digit(d: nat): (c: char)
    requires d < 10
    ensures '0' <= c <= '9' && c as int - '0' as int == d
  {
    (d + '0' as int) as char
  }

  /** Invariant-culture decimal rendering of a natural number, as `int.ToString()` writes it. */
  function NatToDecimal(n: nat): (r: string)
    ensures r != []
    ensures forall i :: 0 <= i < |r| ==> '0' <= r[i] <= '9'
    ensures |r| > 1 ==> r[0] != '0'
  {
    if n < 10 then [Digit(n)] else NatToDecimal(n / 10) + [Digit(n % 10)]
  }

  /** The number a string of decimal digits denotes. */
  function DecimalValue(s: string): nat
    requires forall i :: 0 <= i < |s| ==> '0' <= s[i] <= '9'
  {
    if s == [] then 0 else 10 * DecimalValue(s[..|s| - 1]) + (s[|s| - 1] as int - '0' as int)
  }

  /** Reading back the rendering of `n` gives `n`. */
  lemma {:induction false} DecimalRoundTrip(n: nat)
    ensures DecimalValue(NatToDecimal(n)) == n
  {
    if n >= 10 {
      DecimalRoundTrip(n / 10);
      var r := NatToDecimal(n);
      assert r[..|r| - 1] == NatToDecimal(n / 10);
    }
  }

  /** `int.ToString()` for a possibly negative number. */
  function IntToDecimal(i: int): string {
    if i < 0 then "-" + NatToDecimal(-i) else NatToDecimal(i)
  }
}

=== FILE: token_validation.dfy ===
/**
 * The JWT bearer validation SafeVault's start-up configures for the tokens
 * `AuthController.Login` issues.  The checks the library makes are reduced to
 * what the configuration decides: issuer, audience, signing key, and
 * lifetime with the library's default clock skew of five minutes.  No valid
 * algorithms are configured, so the algorithm is not checked here.  Signatures and the token's serialized form are not modelled; a
 * token is its descriptor.
 */
module Authentication {
  import opened Text
  import opened Repositories
  import opened Controllers

  /** Five minutes in .NET ticks: `TokenValidationParameters.DefaultClockSkew`. */
  const ClockSkew: int := 3_000_000_000

  /** The parts of `TokenValidationParameters` the start-up sets. */
  datatype ValidationParameters = ValidationParameters(validIssuer: string, validAudience: string, signingKey: string)

  /**
   * Whether a token with descriptor `d` passes validation at time `now`: only
   * a token signed with the configured key, and no later than the clock skew
   * after it expires.
   */
  predicate Accepts(p: ValidationParameters, d: TokenDescriptor, now: int)
    ensures Accepts(p, d, now) ==> d.signingKey == p.signingKey
    ensures Accepts(p, d, now) ==> now - ClockSkew <= d.expires
  {
    && d.issuer == p.validIssuer
    && d.audience == p.validAudience
    && d.signingKey == p.signingKey
    && now <= d.expires + ClockSkew
  }

  /** A token signed under the same key by another algorithm is accepted or refused alike. */
  lemma AlgorithmNotChecked(p: ValidationParameters, d: TokenDescriptor, now: int, algorithm: string)
    ensures Accepts(p, d.(algorithm := algorithm), now) == Accepts(p, d, now)
  {
  }

  /**
   * The parameters as the start-up writes them: the valid issuer is read from
   * `Jwt:Audience` and the valid audience from `Jwt:Issuer`.
   */
  function ConfiguredParameters(settings: JwtSettings): (p: ValidationParameters)
    ensures p.validIssuer == settings.audience && p.validAudience == settings.issuer
    ensures p.signingKey == settings.secret
  {
    ValidationParameters(settings.audience, settings.issuer, settings.secret)
  }

  /**
   * As configured, a token issued by `Login` is accepted only when the
   * configured issuer and audience are the same string, and then until one
   * hour plus the clock skew after issue.
   */
  lemma ConfiguredAcceptsOnlyWhenIssuerIsAudience(user: User, settings: JwtSettings, issuedAt: int, now: int)
    ensures Accepts(ConfiguredParameters(settings), Descriptor(user, settings, issuedAt), now) <==>
      settings.issuer == settings.audience && now <= issuedAt + TicksPerHour + ClockSkew
  {
  }

  /** With distinct issuer and audience, a freshly issued token is refused. */
  lemma ConfiguredRejectsFreshToken(user: User, settings: JwtSettings, issuedAt: int)
    requires settings == JwtSettings("secret", "SafeVault", "SafeVaultUsers")
    ensures !Accepts(ConfiguredParameters(settings), Descriptor(user, settings, issuedAt), issuedAt)
  {
    ConfiguredAcceptsOnlyWhenIssuerIsAudience(user, settings, issuedAt, issuedAt);
  }

  /** The parameters as `Login` issues tokens: issuer from `Jwt:Issuer`, audience from `Jwt:Audience`. */
  function IntendedParameters(settings: JwtSettings): (p: ValidationParameters)
    ensures p.validIssuer == settings.issuer && p.validAudience == settings.audience
    ensures p.signingKey == settings.secret
  {
    ValidationParameters(settings.issuer, settings.audience, settings.secret)
  }

  /**
   * With the intended parameters, every token `Login` issues is accepted
   * exactly until one hour plus the clock skew after issue, whatever the
   * configured strings are.
   */
  lemma IntendedAcceptsIssuedTokens(user: User, settings: JwtSettings, issuedAt: int, now: int)
    ensures Accepts(IntendedParameters(settings), Descriptor(user, settings, issuedAt), now) <==>
      now <= issuedAt + TicksPerHour + ClockSkew
  {
  }

  /** A token is accepted only under the secret it was signed with. */
  lemma AcceptedOnlyUnderSigningSecret(user: User, settings: JwtSettings, other: JwtSettings, issuedAt: int, now: int)
    requires other.secret != settings.secret
    ensures !Accepts(IntendedParameters(other), Descriptor(user, settings, issuedAt), now)
    ensures !Accepts(ConfiguredParameters(other), Descriptor(user, settings, issuedAt), now)
  {
  }
}

=== FILE: user_management_api.dfy ===
/**
 * The User Management API: an in-memory table of users keyed by id with a
 * counter that hands out ids, its GET/POST/PUT/DELETE handlers, the
 * validation rules on the `User` payload, and the middleware that admits a
 * request only with the fixed bearer token.
 *
 * The `EmailAddress` attribute's format check is library code and is the
 * `emailAddress` parameter.  Requests are handled one at a time.
 */
module UserManagementApi {
  import opened Text

  /** A `User`; the two required strings may be JSON `null`. */
  datatype User = User(id: int, username: Option<string>, userAge: int, email: Option<string>)

  /** The results the handlers return. */
  datatype ApiResult =
    | OkUsers(users: set<User>)
    | OkUser(user: User)
    | OkEmpty
    | Created(location: string, user: User)
    | NotFound
    | NotFoundMessage(message: string)
    | BadRequestMessage(message: string)
    | ValidationProblem(errors: seq<string>)

  /** `[Required]` on a string: present, and not empty or white space only. */
  predicate Present(s: Option<string>) {
    s.Some? && !AllSpace(s.value)
  }

  /** The `User` rules, each on its own. */
  predicate Conforms(u: User, emailAddress: string -> bool) {
    && Present(u.username)
    && 1 <= u.userAge <= 120
    && Present(u.email)
    && emailAddress(u.email.value)
  }

  /**
   * The messages `Validator.TryValidateObject` collects over all properties in
   * declaration order; on a property whose `[Required]` fails no other rule is
   * checked.
   */
  function ValidationErrors(u: User, emailAddress: string -> bool): (errors: seq<string>)
    ensures errors == [] <==> Conforms(u, emailAddress)
    ensures "Username is required." in errors <==> !Present(u.username)
    ensures "User age must be between 1 and 120." in errors <==> !(1 <= u.userAge <= 120)
    ensures "Email is required." in errors <==> !Present(u.email)
    ensures "Invalid email format." in errors <==> Present(u.email) && !emailAddress(u.email.value)
    ensures |errors| <= 3
  {
    var usernameErrors := if Present(u.username) then [] else ["Username is required."];
    var ageErrors := if 1 <= u.userAge <= 120 then [] else ["User age must be between 1 and 120."];
    var emailErrors :=
      if !Present(u.email) then ["Email is required."]
      else if !emailAddress(u.email.value) then ["Invalid email format."]
      else [];
    usernameErrors + ageErrors + emailErrors
  }

  /** The `users` dictionary and the `nextUserId` counter. */
  class UserTable {
    var users: map<int, User>
    var nextUserId: int
    /** Every id the table has ever handed out or seeded. */
    ghost var issued: set<int>

    /** Each user is stored under its own id, and the counter is above every id ever used. */
    ghost predicate Valid()
      reads this
    {
      && (forall id :: id in users ==> users[id].id == id)
      && users.Keys <= issued
      && (forall id :: id in issued ==> id < nextUserId)
    }

    /** The two seeded users, and the counter at 3. */
    constructor()
      ensures Valid()
      ensures users == map[
        1 := User(1, Some("user1"), 25, Some("user1@example.com")),
        2 := User(2, Some("user2"), 30, Some("user2@example.com"))]
      ensures nextUserId == 3
    {
      users := map[
        1 := User(1, Some("user1"), 25, Some("user1@example.com")),
        2 := User(2, Some("user2"), 30, Some("user2@example.com"))];
      nextUserId := 3;
      issued := {1, 2};
    }

    /** `GET /users`: every stored user, each found under its own id. */
    function GetUsers(): (r: ApiResult)
      reads this
      ensures r.OkUsers?
      ensures forall id :: id in users ==> users[id] in r.users
      ensures Valid() ==> forall u :: u in r.users ==> u.id in users && users[u.id] == u
    {
      StoredUnderOwnIds(users);
      OkUsers(users.Values)
    }

    /** `GET /users/{id}`: the user stored under `id`, or a not-found message naming `id`. */
    function GetUserById(id: int): (r: ApiResult)
      reads this
      ensures r.OkUser? <==> id in users
      ensures r.OkUser? ==> r.user == users[id] && (Valid() ==> r.user.id == id)
      ensures !r.OkUser? ==> r == NotFoundMessage("User with id " + IntToDecimal(id) + " not found.")
    {
      if id in users then OkUser(users[id])
      else NotFoundMessage("User with id " + IntToDecimal(id) + " not found.")
    }

    /**
     * `POST /users`: reject a missing payload or one that breaks a rule, with
     * nothing changed; otherwise store it under the next id, which no user has
     * ever had, and advance the counter.
     */
    method PostUser(payload: Option<User>, emailAddress: string -> bool) returns (r: ApiResult)
      requires Valid()
      modifies this
      ensures Valid()
      ensures payload.None? ==> r == BadRequestMessage("Invalid user payload.")
      ensures payload.Some? && !Conforms(payload.value, emailAddress) ==>
        r == ValidationProblem(ValidationErrors(payload.value, emailAddress))
      ensures !r.Created? ==> users == old(users) && nextUserId == old(nextUserId) && issued == old(issued)
      ensures r.Created? <==> payload.Some? && Conforms(payload.value, emailAddress)
      ensures r.Created? ==>
        && r.user == payload.value.(id := old(nextUserId))
        && r.location == "/users/" + IntToDecimal(old(nextUserId))
        && old(nextUserId) !in old(issued)
        && users == old(users)[old(nextUserId) := r.user]
        && nextUserId == old(nextUserId) + 1
        && issued == old(issued) + {old(nextUserId)}
    {
      if payload.None? {
        return BadRequestMessage("Invalid user payload.");
      }
      var errors := ValidationErrors(payload.value, emailAddress);
      if errors != [] {
        return ValidationProblem(errors);
      }
      var newId := nextUserId;
      nextUserId := nextUserId + 1;
      var newUser := payload.value.(id := newId);
      // The id is fresh, so the insertion cannot find the key taken.
      assert newId !in users;
      users := users[newId := newUser];
      issued := issued + {newId};
      r := Created("/users/" + IntToDecimal(newId), newUser);
    }

    /**
     * `PUT /users/{id}`: replace the whole record stored under `id`, with its
     * id forced to `id` and no validation; not found when `id` is absent.
     */
    method PutUser(id: int, updatedUser: User) returns (r: ApiResult)
      requires Valid()
      modifies this
      ensures Valid()
      ensures old(id in users) ==>
        r == OkUser(updatedUser.(id := id)) && users == old(users)[id := updatedUser.(id := id)]
      ensures id !in old(users) ==> r == NotFound && users == old(users)
      ensures nextUserId == old(nextUserId) && issued == old(issued)
    {
      if id in users {
        var stored := updatedUser.(id := id);
        users := users[id := stored];
        return OkUser(stored);
      }
      return NotFound;
    }

    /** `DELETE /users/{id}`: remove exactly that key; not found when it is absent. */
    method DeleteUser(id: int) returns (r: ApiResult)
      requires Valid()
      modifies this
      ensures Valid()
      ensures old(id in users) ==> r == OkEmpty && users == old(users) - {id}
      ensures id !in old(users) ==> r == NotFound && users == old(users)
      ensures nextUserId == old(nextUserId) && issued == old(issued)
    {
      if id in users {
        users := users - {id};
        return OkEmpty;
      }
      return NotFound;
    }
  }

  /** In a table where every user sits under its own id, every stored user is found by its id. */
  lemma StoredUnderOwnIds(m: map<int, User>)
    ensures (forall id :: id in m ==> m[id].id == id) ==>
      forall u :: u in m.Values ==> u.id in m && m[u.id] == u
  {
    if forall id :: id in m ==> m[id].id == id {
      forall u | u in m.Values
        ensures u.id in m && m[u.id] == u
      {
        var id :| id in m && m[id] == u;
      }
    }
  }

  /** The fixed token the middleware accepts. */
  const ValidToken := "YOUR_SECRET_TOKEN"
  /** The scheme prefix the middleware strips, compared ignoring case. */
  const BearerPrefix := "Bearer "

  /** What the token middleware does with a request. */
  datatype GateOutcome =
    | Rejected(status: int, error: string, message: string)
    | Passed

  /** The token a present header presents: with a leading `Bearer ` in any letter case dropped and the rest trimmed. */
  function Presented(value: string): (r: string)
    ensures !StartsWithIgnoreCase(value, BearerPrefix) ==> r == value
    ensures StartsWithIgnoreCase(value, BearerPrefix) ==>
      |r| <= |value| - |BearerPrefix| && (r != [] ==> !IsSpace(r[0]) && !IsSpace(r[|r| - 1]))
  {
    if StartsWithIgnoreCase(value, BearerPrefix) then Trim(value[|BearerPrefix|..]) else value
  }

  /**
   * `TokenValidationMiddleware.Invoke` on the `Authorization` header, absent
   * or present: without it the request is refused as carrying no token;
   * otherwise the request passes only if the presented token is the valid one.
   */
  function ValidateToken(header: Option<string>): (r: GateOutcome)
    ensures r.Rejected? ==> r.status == 401 && r.error == "Unauthorized"
    ensures header.None? ==> r == Rejected(401, "Unauthorized", "No token provided.")
    ensures header.Some? && r.Rejected? ==> r.message == "Invalid token."
  {
    match header
    case None => Rejected(401, "Unauthorized", "No token provided.")
    case Some(value) =>
      if Presented(value) == ValidToken then Passed else Rejected(401, "Unauthorized", "Invalid token.")
  }

  /**
   * A header carries token `t` when it is exactly `t`, or the bearer prefix in
   * any letter case followed by `t` padded with white space.
   */
  ghost predicate Carries(h: string, t: string) {
    || h == t
    || exists prefix, before, after ::
         && EqualsIgnoreCase(prefix, BearerPrefix) && AllSpace(before) && AllSpace(after)
         && h == prefix + before + t + after
  }

  /** The middleware lets a request through exactly when its header carries the valid token. */
  lemma ValidateTokenPasses(h: string)
    ensures ValidateToken(Some(h)).Passed? <==> Carries(h, ValidToken)
  {
    var t := ValidToken;
    TokenLacksPrefix(t);
    TokenUnpadded(t);
    PresentedExactly(h, t);
  }

  /**
   * For a token that is not padded and does not itself start with the prefix,
   * a header presents it exactly when the header carries it.
   */
  lemma PresentedExactly(h: string, t: string)
    requires t != [] && !IsSpace(t[0]) && !IsSpace(t[|t| - 1])
    requires !StartsWithIgnoreCase(t, BearerPrefix)
    ensures Presented(h) == t <==> Carries(h, t)
  {
    if Presented(h) == t {
      PresentedCarries(h, t);
    }
    if Carries(h, t) {
      CarriedIsPresented(h, t);
    }
  }

  lemma PresentedCarries(h: string, t: string)
    requires Presented(h) == t
    ensures Carries(h, t)
  {
    var n := |BearerPrefix|;
    if StartsWithIgnoreCase(h, BearerPrefix) {
      var rest := h[n..];
      var before, after := TrimParts(rest);
      assert h == h[..n] + rest;
      CarriesBy(h, t, h[..n], before, after);
    }
  }

  lemma CarriesBy(h: string, t: string, prefix: string, before: string, after: string)
    requires EqualsIgnoreCase(prefix, BearerPrefix) && AllSpace(before) && AllSpace(after)
    requires h == prefix + (before + t + after)
    ensures Carries(h, t)
  {
    assert h == prefix + before + t + after;
  }

  lemma CarriedIsPresented(h: string, t: string)
    requires t != [] && !IsSpace(t[0]) && !IsSpace(t[|t| - 1])
    requires !StartsWithIgnoreCase(t, BearerPrefix)
    requires Carries(h, t)
    ensures Presented(h) == t
  {
    if h != t {
      var prefix, before, after :| && EqualsIgnoreCase(prefix, BearerPrefix) && AllSpace(before) && AllSpace(after)
                                    && h == prefix + before + t + after;
      var rest := before + t + after;
      assert h == prefix + rest;
      BearerFormStartsWithPrefix(prefix, rest);
      assert h[|BearerPrefix|..] == rest;
      TrimPadded(before, t, after);
      assert Presented(h) == Trim(rest);
    }
  }

  /** The valid token does not itself start with the bearer prefix. */
  lemma TokenLacksPrefix(t: string)
    requires t == ValidToken
    ensures !StartsWithIgnoreCase(t, BearerPrefix)
  {
    assert t[..|BearerPrefix|][0] == 'Y';
  }

  /** The valid token neither starts nor ends with white space. */
  lemma TokenUnpadded(t: string)
    requires t == ValidToken
    ensures t != [] && !IsSpace(t[0]) && !IsSpace(t[|t| - 1])
  {
  }

  /** Text that begins with the bearer prefix in some letter case starts with it ignoring case. */
  lemma BearerFormStartsWithPrefix(prefix: string, rest: string)
    requires EqualsIgnoreCase(prefix, BearerPrefix)
    ensures StartsWithIgnoreCase(prefix + rest, BearerPrefix)
  {
    assert (prefix + rest)[..|BearerPrefix|] == prefix;
  }
}

=== FILE: user_repository.dfy ===
/**
 * `SafeVault.Models.User` and `UserRepository`: the `Users` table as a map
 * from username to record.  The table's uniqueness constraints (username and
 * e-mail) are the store's own refusal; a connection or query failure is a
 * `fault` flag the caller passes in, and the repository turns it into a null
 * record or `false`, as its `catch` blocks do.
 */
module Repositories {
  import opened Text
  import opened InputSanitizer

  /** One row of the `Users` table (the integer `UserID` is not modelled). */
  datatype User = User(username: string, email: string, passwordHash: string, role: string)

  /** The store accepts `user` when neither its username nor its e-mail is taken. */
  predicate Admissible(users: map<string, User>, user: User) {
    && user.username !in users
    && forall name :: name in users ==> users[name].email != user.email
  }

  class UserRepository {
    /** The rows of the table, keyed by their `Username` column. */
    var users: map<string, User>
    /** The library routines `SanitizeInput` relies on. */
    const framework: Framework

    /** Every row sits under its own username. */
    ghost predicate Valid()
      reads this
    {
      forall name :: name in users ==> users[name].username == name
    }

    constructor(framework: Framework)
      ensures Valid() && users == map[] && this.framework == framework
    {
      users := map[];
      this.framework := framework;
    }

    /**
     * `GetUser`: the row whose username equals the sanitized argument, or
     * nothing when there is none or the query fails.
     */
    function GetUser(username: string, fault: bool): (r: Option<User>)
      reads this
      ensures Valid() ==>
        (r.Some? <==> !fault && exists u :: u in users.Values && u.username == Sanitized(username, framework))
      ensures r.Some? ==> r.value in users.Values && r.value.username == Sanitized(username, framework)
    {
      var key := Sanitized(username, framework);
      if fault || key !in users then None
      else
        var u := users[key];
        assert u in users.Values;
        assert Valid() ==> u.username == key;
        if u.username == key then Some(u) else None
    }

    /**
     * `AddUser`: insert the row as given (no sanitizing here); `true` when a row
     * was written, `false` when the store refuses it or the command fails.
     */
    method AddUser(user: User, fault: bool) returns (ok: bool)
      requires Valid()
      modifies this
      ensures Valid()
      ensures ok <==> !fault && Admissible(old(users), user)
      ensures ok ==> users == old(users)[user.username := user]
      ensures !ok ==> users == old(users)
    {
      if fault || user.username in users {
        return false;
      }
      var taken := exists name :: name in users && users[name].email == user.email;
      if taken {
        return false;
      }
      users := users[user.username := user];
      ok := true;
    }
  }

  /** A row is found through every name that sanitizes to its username. */
  lemma FoundUnderSanitizedName(repo: UserRepository, name: string)
    requires repo.Valid() && Sanitized(name, repo.framework) in repo.users
    ensures repo.GetUser(name, false) == Some(repo.users[Sanitized(name, repo.framework)])
  {
  }
}

=== FILE: user_service.dfy ===
/**
 * `UserService`: registration (duplicate check, then insert) and credential
 * checking (lookup, then password verification) over the repository.
 *
 * BCrypt is library code: `HashPassword` draws a random salt, so the model's
 * hash takes the salt as a parameter, and `Verify` is an uninterpreted
 * function.  Nothing is assumed of them except where a lemma says so.
 */
module Services {
  import opened Text
  import opened InputSanitizer
  import opened Repositories

  /** `BCrypt.HashPassword(password)` with the salt it draws, and `BCrypt.Verify(password, hash)`. */
  datatype PasswordHasher = PasswordHasher(
    hashPassword: (string, string) -> string,
    verify: (string, string) -> bool)

  /** BCrypt's promise: a password verifies against every hash made from it. */
  ghost predicate VerifiesOwnHashes(hasher: PasswordHasher) {
    forall password, salt :: hasher.verify(password, hasher.hashPassword(password, salt))
  }

  class UserService {
    const repository: UserRepository
    const hasher: PasswordHasher

    ghost predicate Valid()
      reads this, repository
    {
      repository.Valid()
    }

    constructor(repository: UserRepository, hasher: PasswordHasher)
      ensures this.repository == repository && this.hasher == hasher
    {
      this.repository := repository;
      this.hasher := hasher;
    }

    /**
     * `Register`: refuse when the lookup of `username` finds a row; otherwise
     * insert the arguments verbatim with the hash of the password, and report
     * exactly what the insert reports.  `salt` is the salt BCrypt draws;
     * `lookupFault` and `insertFault` say whether the two store calls fail.
     */
    method Register(username: string, email: string, password: string, role: string,
                    salt: string, lookupFault: bool, insertFault: bool) returns (ok: bool)
      requires Valid()
      modifies repository
      ensures Valid()
      ensures old(repository.GetUser(username, lookupFault)).Some? ==> !ok
      ensures ok <==> && old(repository.GetUser(username, lookupFault)).None?
                      && !insertFault
                      && Admissible(old(repository.users), NewUser(username, email, password, role, salt))
      ensures ok ==>
        repository.users == old(repository.users)[username := NewUser(username, email, password, role, salt)]
      ensures !ok ==> repository.users == old(repository.users)
    {
      if repository.GetUser(username, lookupFault).Some? {
        return false;
      }
      var passwordHash := hasher.hashPassword(password, salt);
      var user := User(username, email, passwordHash, role);
      ok := repository.AddUser(user, insertFault);
    }

    /** The row `Register` writes: the arguments as given, the password only as its hash. */
    function NewUser(username: string, email: string, password: string, role: string, salt: string): (u: User)
      ensures u.username == username && u.email == email && u.role == role
      ensures u.passwordHash == hasher.hashPassword(password, salt)
    {
      User(username, email, hasher.hashPassword(password, salt), role)
    }

    /**
     * `Authenticate`: the stored row when the lookup finds one and the password
     * verifies against its hash; nothing otherwise, whichever check failed.
     */
    function Authenticate(username: string, password: string, fault: bool): (r: Option<User>)
      reads this, repository
      ensures Valid() ==>
        (r.Some? <==> && !fault
                      && exists u :: && u in repository.users.Values
                                     && u.username == Sanitized(username, repository.framework)
                                     && hasher.verify(password, u.passwordHash))
      ensures r.Some? ==> && r.value in repository.users.Values
                          && r.value.username == Sanitized(username, repository.framework)
                          && hasher.verify(password, r.value.passwordHash)
    {
      var user := repository.GetUser(username, fault);
      if user.None? || !hasher.verify(password, user.value.passwordHash) then None
      else user
    }

    /** `Login`: lookup and verify, answering only yes or no. */
    function Login(username: string, password: string, fault: bool): (r: bool)
      reads this, repository
      ensures r <==> Authenticate(username, password, fault).Some?
    {
      match repository.GetUser(username, fault)
      case None => false
      case Some(user) => hasher.verify(password, user.passwordHash)
    }
  }

  /**
   * A row written by `Register` is found by `Authenticate` under every name
   * that sanitizes to its username, with the password it was registered with.
   */
  lemma RegisteredUserAuthenticates(service: UserService, name: string, email: string,
                                    password: string, role: string, salt: string)
    requires service.Valid() && VerifiesOwnHashes(service.hasher)
    requires var key := Sanitized(name, service.repository.framework);
      key in service.repository.users &&
      service.repository.users[key] == service.NewUser(key, email, password, role, salt)
    ensures service.Authenticate(name, password, false) ==
      Some(service.NewUser(Sanitized(name, service.repository.framework), email, password, role, salt))
    ensures service.Login(name, password, false)
  {
    var key := Sanitized(name, service.repository.framework);
    assert service.hasher.verify(password, service.hasher.hashPassword(password, salt));
    FoundUnderSanitizedName(service.repository, name);
  }
}
